=== FILE: README.md ===
# SalonManager booking core in Dafny

This project models the booking core of SalonManager, a salon booking
service, and proves properties of the model.

- **Slot engine** (`storage.ts`):
  - A stylist's weekly work-hour window is walked on a 15-minute grid.
  - Each candidate slot lasts the service duration plus a 5-minute buffer.
  - A candidate is dropped when an absence or a non-cancelled booking of the same stylist overlaps it.
  - The slots are sorted by start time, then by stylist id.
- **Booking store**:
  - The overlap guard runs before a booking is inserted.
  - The partial update by key, and the status update built on it.
  - The invariant the guard protects: no two non-cancelled bookings of one stylist overlap.
- **Salon list**: services are grouped per salon, at most three per salon.
- **Request validators** (`routes.ts`): the slot query, booking creation, the bookings list and the status change. Each either answers with an error status or forwards normalised arguments.
- **Start-up configuration** (`env.ts`): `KEY=VALUE` files loaded without overwriting, the boolean flag, and the allowed-origins list.
- **Reminder job**: which bookings get a reminder, and the mark that prevents a second one.
- **Mail templates**: the new-booking notice to the salon and the status notice to the customer.
- **Checkout cart** and its total.
- **Salon "today" board**: status badges, and the status actions it offers. These actions are the booking lifecycle graph: requested → confirmed | declined, confirmed → cancelled.

How the model represents the system:

- **Instants** are whole minutes. The reminder job's own clock reading is the one exception: it is a minute plus the milliseconds past it, because the job compares that reading with the booking starts in milliseconds.
- **Days**:
  - A calendar day is a day number.
  - `ToInstant(day, m) = day * 1440 + m` stands in for the salon-timezone conversion.
  - The weekday is `(day + 4) % 7`, with 0 = Sunday; day 0, 1970-01-01, was a Thursday.
- **Database reads** are sequences of rows, and the query conditions become predicates.
- **Request inputs** are JavaScript values:
  - `Number(...)`, `String(...)` and truthiness are modelled explicitly.
  - `Number("")` is 0, and a non-numeric string is NaN.

Modules:

- `base`: `Option` and `Result`.
- `strings`: `split`, `join`, `trim` and code-unit order.
- `schema`: the records and their defaults.
- `timewindow`: intervals and the slot grid.
- `slotorder`: slot sorting.
- `availability`: the slot query.
- `bookingstore`: the booking table.
- `bookingflow`: how the slot query relates to the guard.
- `salons`: the salon list.
- `jsvalues`: JavaScript values and coercions.
- `routes`: the request validators.
- `env`: start-up configuration.
- `reminder`: the reminder job.
- `mailer`: the mail templates.
- `checkout`: the checkout cart.
- `admintoday`: the "today" board.

Two consequences of the code are worth stating:

- **Last slot start.** A 65-minute span (a 60-minute service plus the 5-minute buffer) would fit a 16:55 start in a 09:00–18:00 window, but the 15-minute grid's last fitting start is 16:45 (`TimeWindow.NineToSixWithAnHourService`).
- **Inactive stylists.** The slot query does not filter stylists on `active`: every stylist of the salon, or the one named, takes part.

## Model

| member | source | states |
|---|---|---|
| TimeWindow.Weekday | SalonManager/shared/schema.ts:87 | the weekday of a day number lies in 0..6 |
| TimeWindow.WeekdayPeriodic | SalonManager/shared/schema.ts:87 | the weekday repeats every seven days, and 1970-01-04 is a Sunday |
| TimeWindow.RangesOverlapSymmetric | SalonManager/server/storage.ts:69-76 | the overlap test is symmetric; intervals that only touch do not overlap |
| TimeWindow.RangesOverlapIffSharedMinute | SalonManager/server/storage.ts:69-76 | two non-empty half-open intervals pass the test exactly when they share a minute |
| TimeWindow.SlotsFrom | SalonManager/server/storage.ts:85-92 | the k-th candidate starts 15·k minutes after the first; each has the given span and ends inside the window; the next grid start would not fit |
| TimeWindow.IterateSlots | SalonManager/server/storage.ts:78-94 | candidates start on the 15-minute grid from the window start and are strictly increasing; each lasts duration + 5 and lies inside the window; none when the window is shorter than duration + 5 |
| TimeWindow.IterateSlotsExact | SalonManager/server/storage.ts:85-92 | a pair is a candidate exactly when it is a grid point of the window that fits: nothing is skipped and nothing is extra |
| TimeWindow.IterateSlotsCount | SalonManager/server/storage.ts:85-92 | the number of candidates is (room / 15) + 1, where room = window length − duration − 5; zero when room is negative |
| TimeWindow.NineToSixWithAnHourService | SalonManager/server/storage.ts:78-94 | 09:00–18:00 with a 60-minute service gives 32 slots, the first 09:00–10:05 and the last 16:45–17:50 |
| SlotOrder.SlotLeTotal | SalonManager/server/storage.ts:724-726 | any two slots are comparable by (start, stylist id) |
| SlotOrder.SlotLeTransitive | SalonManager/server/storage.ts:724-726 | the slot order is transitive |
| SlotOrder.Insert | SalonManager/server/storage.ts:724-726 | inserting into a sorted list keeps it sorted and adds exactly that slot |
| SlotOrder.SortSlots | SalonManager/server/storage.ts:724-726 | the result is sorted by start, then stylist id, and is a permutation of the input |
| SlotOrder.SortSlotsSameMembers | SalonManager/server/storage.ts:724-726 | sorting neither drops nor invents a slot |
| Availability.FindService | SalonManager/server/storage.ts:646-647 | returns the service row with the requested key, or nothing exactly when no row has that key |
| Availability.SalonStylistIds | SalonManager/server/storage.ts:649-651 | lists exactly the stylists of the salon, with no check on `active` |
| Availability.RulesFor | SalonManager/server/storage.ts:658-667 | keeps exactly the work-hour rules of this salon, this weekday and a candidate stylist |
| Availability.AbsencesFor | SalonManager/server/storage.ts:673-683 | keeps exactly the absences of candidate stylists in this salon that touch the day |
| Availability.OccupyingFor | SalonManager/server/storage.ts:685-696 | keeps exactly the non-cancelled bookings of candidate stylists in this salon that touch the day |
| Availability.FreeSlots | SalonManager/server/storage.ts:709-721 | keeps exactly the candidates that no fetched absence or booking of that stylist overlaps |
| Availability.Scan | SalonManager/server/storage.ts:700-722 | a slot is produced exactly when some rule produces it |
| Availability.FindSlots | SalonManager/server/storage.ts:640-728 | empty when the service is missing or inactive, when no stylist resolves, or when no rule matches the weekday; otherwise sorted by (start, stylist id) |
| Availability.FetchMissesNothing | SalonManager/server/storage.ts:670-696 | for a slot inside the day, the day-bounded reads block it exactly when some absence or non-cancelled booking of its stylist in the salon overlaps it |
| Availability.RuleSlotsExact | SalonManager/server/storage.ts:700-721 | a fetched rule yields exactly its grid points in a non-empty window that nothing overlaps |
| Availability.FindSlotsExact | SalonManager/server/storage.ts:640-728 | a slot is returned exactly when the service is active, a rule of a candidate stylist for the weekday has the slot on its grid, and no absence or non-cancelled booking of that stylist in the salon overlaps it |
| Availability.FindSlotsShape | SalonManager/server/storage.ts:700-721 | every returned slot lasts duration + 5 and lies inside a window of its own stylist for that weekday |
| Availability.OccupyingIgnoresCancelled | SalonManager/server/storage.ts:692 | adding a cancelled booking leaves the fetched bookings unchanged |
| Availability.CancelledBookingNeverBlocks | SalonManager/server/storage.ts:685-696 | adding a cancelled booking leaves the slot answer unchanged |
| BookingStore.CreateBooking | SalonManager/server/storage.ts:530-551 | refuses with Overlap exactly when the booking names a stylist and a non-cancelled booking of that stylist overlaps it, leaving the store unchanged; otherwise appends exactly the new row, with its defaults; preserves no-double-booking |
| BookingStore.AppendKeepsNoDoubleBooking | SalonManager/server/storage.ts:530-551 | appending a booking the guard lets through keeps no two non-cancelled bookings of one stylist overlapping |
| BookingStore.DeclinedStillOccupies | SalonManager/server/storage.ts:541 | only cancellation frees a booking's time; a declined booking still holds it |
| BookingStore.FindBooking | SalonManager/server/storage.ts:553-560 | the row with the key, or nothing exactly when no row has it |
| BookingStore.UpdateBooking | SalonManager/server/storage.ts:553-560 | rows with the key get the patch, which may set any column of the insert schema; every other row is unchanged; a row is returned exactly when one has the key |
| BookingStore.UpdateBookingStatus | SalonManager/server/storage.ts:749-751 | only `status` changes, and only on rows with the key; times, stylist and all other fields stay |
| BookingStore.CancelKeepsNoDoubleBooking | SalonManager/server/storage.ts:749-751 | cancelling any booking preserves no-double-booking |
| BookingStore.UncancelCanDoubleBook | SalonManager/server/storage.ts:749-751 | setting a cancelled booking back to confirmed can break no-double-booking |
| BookingStore.TransitionStatus | SalonManager/client/src/pages/admin-today.tsx:121-166 | not found exactly when no row has the key; refused exactly when the move is not on the lifecycle graph; otherwise the status update; with unique keys, an accepted move preserves no-double-booking |
| BookingStore.GuardedUpdateFreesOnly | SalonManager/client/src/pages/admin-today.tsx:121-166 | with unique keys, a move on the lifecycle graph changes statuses only and never makes a booking hold time again, so no-double-booking is preserved |
| BookingFlow.OfferedSlotIsCommittable | SalonManager/server/storage.ts:530-551 | booking an offered slot for its stylist passes the overlap guard, provided that stylist's bookings all belong to the queried salon |
| BookingFlow.OtherSalonBookingBlocksCommit | SalonManager/server/storage.ts:690 | without that proviso, a booking of the stylist in another salon leaves a slot offered that the guard refuses |
| Salons.ServicesOfMembers | SalonManager/server/storage.ts:229-237 | a service summary is in a salon's group exactly when some service row of that salon has it |
| Salons.GroupServices | SalonManager/server/storage.ts:229-237 | the map holds, for every listed salon, its services in table order, and no other salon |
| Salons.GetSalons | SalonManager/server/storage.ts:205-248 | one item per salon row, in order, with the row's fields and the first three services of that salon |
| Salons.ListedServicesBelongToSalon | SalonManager/server/storage.ts:246 | a listed service belongs to the salon; at most three are shown, and exactly three when the salon has three or more |
| Schema.ParseStatus | SalonManager/shared/schema.ts:113 | exactly the four status words are accepted, and the accepted word is the status's spelling |
| Schema.StatusNameRoundTrip | SalonManager/shared/schema.ts:113 | reading back a status's spelling gives the status |
| Schema.InsertService | SalonManager/shared/schema.ts:58-67 | `active` defaults to true; the other fields are copied |
| Schema.InsertStylist | SalonManager/shared/schema.ts:70-80 | `active` defaults to true; `isApprentice` defaults to false and keeps a given value; display name and avatar URL are copied as given |
| Schema.InsertBooking | SalonManager/shared/schema.ts:105-118 | `status` defaults to requested; `reminderSent` defaults to false and keeps a given value; a missing stylist stays missing; the other fields are copied |
| AdminToday.BadgeLabelsDistinct | SalonManager/client/src/pages/admin-today.tsx:10-19 | the four statuses get four different badge labels |
| AdminToday.AllowedIsLifecycleGraph | SalonManager/client/src/pages/admin-today.tsx:121-166 | the offered moves are exactly requested→confirmed, requested→declined and confirmed→cancelled |
| AdminToday.TerminalStatuses | SalonManager/client/src/pages/admin-today.tsx:164-166 | declined and cancelled offer no action |
| AdminToday.ReasonOnlyForDeclineAndCancel | SalonManager/client/src/pages/admin-today.tsx:121-163 | decline and cancel ask for a reason and confirm does not; only cancel asks for confirmation first |
| AdminToday.AllowedMovesForward | SalonManager/client/src/pages/admin-today.tsx:121-166 | every offered move goes strictly forward in the lifecycle |
| AdminToday.NoPathReturns | SalonManager/client/src/pages/admin-today.tsx:121-166 | following offered moves never returns to a status already left |
| JsValues.FormatNat | SalonManager/server/routes.ts:388 | a decimal numeral without leading zeros |
| JsValues.ParseFormatNat | SalonManager/server/routes.ts:311 | reading a natural number's numeral gives the number back |
| JsValues.NumberOfString | SalonManager/server/routes.ts:90 | blank text gives 0; an optionally signed run of digits gives its value while its magnitude is below 2^1024 − 2^970 and the infinity of its sign from there on; `0b`, `0o` or `0x` (either case) before a run of digits of that base gives its value, and with a sign before it gives NaN; `Infinity` with an optional sign gives that infinity; anything else gives NaN |
| JsValues.PrefixedNumerals | SalonManager/server/routes.ts:90 | a `0b`, `0o` or `0x` numeral, in either case, reads as its value in base 2, 8 or 16, so a path id written that way is accepted; with a sign before the prefix it reads as NaN |
| JsValues.PrefixedExamples | SalonManager/server/routes.ts:90 | `Number("0b101")` is 5, `Number("0O17")` is 15 and `Number("0x1f")` is 31 |
| JsValues.LongNumeralIsInfinite | SalonManager/server/routes.ts:90 | a run of 310 or more digits without a leading zero reads as plus infinity, so `Number.isFinite` fails on it |
| JsValues.NumberOfFormat | SalonManager/server/routes.ts:90 | `Number(String(n))` is n while the magnitude of n is below 2^1024 − 2^970, and the infinity of n's sign from there on |
| JsValues.NumberOf | SalonManager/server/routes.ts:311 | a JSON number gives itself, or the infinity of its sign when it is beyond every double; null and the empty array give 0; undefined and plain objects give NaN; a string gives `Number` of the string, and an array `Number` of its comma-joined text |
| JsValues.SingletonArray | SalonManager/server/routes.ts:311 | a one-element array reads as its element: `String([v])` is `String(v)` and `Number([n])` is `Number(n)`; `[null]` and `[undefined]` read as empty text and 0 |
| Routes.PathId | SalonManager/server/routes.ts:306-307 | a path id is accepted exactly when `Number` of it is finite |
| Routes.HandleListServices | SalonManager/server/routes.ts:88-93 | a non-numeric salon id gets 400 and storage is not called |
| Routes.LongSalonIdRefused | SalonManager/server/routes.ts:88-93 | a salon id of 310 or more digits is infinite, so it gets the same 400 as a non-numeric one |
| Routes.DateStringShape | SalonManager/server/routes.ts:290 | the date pattern matches exactly four digits, two digits and two digits joined by hyphens |
| Routes.HandleSlots | SalonManager/server/routes.ts:281-300 | proceeds exactly when `service_id` is non-empty and `date` matches the pattern, otherwise 400; an empty `stylist_id` counts as none |
| Routes.FieldErrors | SalonManager/server/routes.ts:311-313 | `service_id` is flagged iff `Number` of it is not finite, arrays included; `stylist_id` iff present, non-null and not numeric; `starts_at` iff not a string |
| Routes.HandleCreateBooking | SalonManager/server/routes.ts:304-329 | a bad salon id gives 400; 422 with the field list iff some field is flagged; otherwise forwards the numeric ids, with an absent or null stylist as none, and the note iff it is a string |
| Routes.EmptyServiceIdIsNumeric | SalonManager/server/routes.ts:311 | an empty-string `service_id` passes and is forwarded as service 0 |
| Routes.EmptyArrayServiceIdIsNumeric | SalonManager/server/routes.ts:311 | an empty-array `service_id` passes and is forwarded as service 0 |
| Routes.ClampLimit | SalonManager/server/routes.ts:342 | a finite limit is clamped into [1, 100]; minus infinity gives 1 and plus infinity 100; NaN stays NaN |
| Routes.ClampOffset | SalonManager/server/routes.ts:343 | a finite offset is never negative and a non-negative one is kept; minus infinity gives 0 and plus infinity stays; NaN stays NaN |
| Routes.ParseScope | SalonManager/server/routes.ts:333-336 | the scope is `me` or `salon` exactly when the parameter spells it |
| Routes.ListRejection | SalonManager/server/routes.ts:333-354 | the first failed check in source order names the error: bad scope, then bad status, then malformed from/to; none exactly when every check passes |
| Routes.ListLimit | SalonManager/server/routes.ts:342 | an absent or empty limit is 50; any other is clamped into [1, 100] |
| Routes.ListOffset | SalonManager/server/routes.ts:343 | an absent or empty offset is 0; any other is never negative |
| Routes.HandleListBookings | SalonManager/server/routes.ts:331-373 | rejects in order a bad scope, a bad status, a malformed from/to, and a salon scope without a numeric salon id; limit defaults to 50 and is clamped into [1, 100]; offset defaults to 0 and is never negative |
| Routes.StatusWordShape | SalonManager/server/routes.ts:386-390 | only a string, or an array whose comma-joined text is a status word, passes the status whitelist; numbers, booleans, null, undefined and plain objects never do |
| Routes.HandleStatusPatch | SalonManager/server/routes.ts:375-409 | proceeds exactly when the booking id and `salon_id` are numeric and `String(status)` is one of the four words; the status value is forwarded as it came, a string or an array; the reason is kept iff it is a string |
| Routes.PatchAcceptsEveryStatus | SalonManager/server/routes.ts:381-399 | every one of the four statuses is forwarded, with no check against the booking's current status |
| Routes.ArrayStatusPasses | SalonManager/server/routes.ts:386-399 | a one-element array holding a status word passes the whitelist and the array itself is forwarded |
| Env.DropCR | SalonManager/server/env.ts:7 | removes exactly one trailing carriage return, if there is one |
| Env.SplitLines | SalonManager/server/env.ts:7 | one piece per line feed; no piece contains a line feed |
| Env.SplitLinesCRLF | SalonManager/server/env.ts:7 | text written with CRLF line ends splits back into its lines |
| Env.SplitLinesLF | SalonManager/server/env.ts:7 | text written with LF line ends splits back into its lines |
| Env.ParseLine | SalonManager/server/env.ts:8-10 | an accepted line is a valid name, `=`, and a value without line breaks |
| Env.ParseLineExact | SalonManager/server/env.ts:8-10 | a line assigns a value to a name exactly when it is a valid upper-case name, `=`, and a value without line breaks; the value may be empty or contain `=` |
| Env.ApplyLines | SalonManager/server/env.ts:7-15 | a name already set keeps its value; any other name gets the value of its first assignment |
| Env.LoadEnv | SalonManager/server/env.ts:4-19 | a missing file changes nothing; no set name is overwritten; every new name takes its first assignment in the file |
| Env.Boot | SalonManager/server/env.ts:21-22 | the process environment survives start-up unchanged |
| Env.BootPrecedence | SalonManager/server/env.ts:11-22 | the process environment wins over `.env`, which wins over `.env.<NODE_ENV>`; within a file the first assignment wins |
| Env.Bool | SalonManager/server/env.ts:24-26 | a flag is on exactly for `true` and `1` |
| Env.BoolIsStrict | SalonManager/server/env.ts:24-26 | an unset flag, or one set to `""`, `TRUE`, `yes` or ` 1`, is off |
| Env.TrimNonEmptyMembers | SalonManager/server/env.ts:32-33 | a text is listed exactly when it is non-empty and some piece trims to it |
| Env.TrimNonEmptyAppend | SalonManager/server/env.ts:32-33 | the filter works piece by piece, so the listed texts keep the order of their pieces |
| Env.AllowedOrigins | SalonManager/server/env.ts:30-33 | an unset or empty value gives no origins; every entry is trimmed and non-empty |
| Env.AllowedOriginsOfEntries | SalonManager/server/env.ts:30-33 | comma-joined entries read back as the entries trimmed, the empty ones dropped, in order |
| Env.AllowedOriginsRoundTrip | SalonManager/server/env.ts:30-33 | a list of clean origins written comma-separated reads back as the same list |
| Env.AllowedOriginsPadded | SalonManager/server/env.ts:30-33 | clean origins written with blanks around each and an empty entry at either end read back as the same list |
| Reminder.Selected | SalonManager/server/jobs/reminder.ts:9-19 | selects exactly the confirmed, not-yet-reminded bookings starting strictly between 24 and 25 hours after the clock reading, compared in milliseconds |
| Reminder.EligibleInMinutes | SalonManager/server/jobs/reminder.ts:9-18 | in whole minutes, a booking is eligible when it starts more than 24 hours after the reading's minute and less than 25 hours after it, or exactly 25 hours after it when the reading is past second 0 |
| Reminder.BoundaryStartNeedsLateReading | SalonManager/server/jobs/reminder.ts:9-18 | a confirmed, unreminded booking starting exactly 25 hours after the tick's minute is reminded by that tick if and only if the reading is past second 0 of the minute |
| Reminder.Process | SalonManager/server/jobs/reminder.ts:27-56 | rows are marked exactly when a selected booking with their key has a customer address; nothing else changes; the mailed keys are exactly those bookings' keys |
| Reminder.RunReminder | SalonManager/server/jobs/reminder.ts:6-60 | a run changes nothing but `reminderSent` |
| Reminder.RunReminderEffect | SalonManager/server/jobs/reminder.ts:27-51 | with unique keys, a row is marked and mailed exactly when it is eligible and its customer has an address; a row without one keeps `reminderSent` false |
| Reminder.AtMostOneReminder | SalonManager/server/jobs/reminder.ts:13-51 | the next run, at any instant, mails none of the bookings the previous run mailed |
| Reminder.OneRunPerHour | SalonManager/server/jobs/reminder.ts:62-67 | any sixty consecutive minutes contain exactly one tick on which the job runs |
| Mailer.Kv | SalonManager/server/mailer.ts:88-90 | the row embeds the caption and the value verbatim, at fixed places, without escaping |
| Mailer.KvInjective | SalonManager/server/mailer.ts:88-90 | for captions of equal length, the row determines its caption and its value |
| Mailer.NewBookingToSalon | SalonManager/server/mailer.ts:92-123 | the title is `Neue Buchung · <salon>`; the body always has the service, date and time rows, a stylist or note row with text x exactly when that parameter is given as x, and the manage link with the URL verbatim exactly when one is given; without line breaks in the parameters, the text splits into the title line, the service, date and time lines and each given optional line |
| Mailer.NewBookingRequiredRows | SalonManager/server/mailer.ts:106-108 | the service, date and time rows are always in the body |
| Mailer.NewBookingTextLines | SalonManager/server/mailer.ts:116-121 | the text is the header, service, date and time lines, then the stylist, note and manage lines exactly when given, in that order, each ended by a line feed |
| Mailer.NewBookingHtmlOptionalRows | SalonManager/server/mailer.ts:109-110 | the stylist and note rows appear exactly when given, with the given text |
| Mailer.NewBookingManageLink | SalonManager/server/mailer.ts:111-113 | the link block carries the URL verbatim right after `<a href="` when a URL is given, and is the empty frame otherwise |
| Mailer.TitlesDistinct | SalonManager/server/mailer.ts:132-136 | the three customer statuses have three different titles |
| Mailer.StatusToCustomer | SalonManager/server/mailer.ts:125-153 | the title is `<status title> · <salon>`; the body holds the status, service, date and time rows and the thank-you line; its status row names this status and no other; without line breaks in the parameters the text splits into the title, service, date and time lines |
| Mailer.StatusRowNamesOnlyItsStatus | SalonManager/server/mailer.ts:132-144 | a status row in the body names the notified status and no other |
| Mailer.StatusTextLines | SalonManager/server/mailer.ts:147-151 | when no parameter holds a line break, splitting the joined text at line breaks gives back exactly its four lines: `<title> · <salon>`, then the service, date and time lines |
| Checkout.Qty | SalonManager/client/src/pages/checkout.tsx:35 | a missing entry counts as 0 |
| Checkout.AddItem | SalonManager/client/src/pages/checkout.tsx:29-31 | the item's count rises by one, starting from 0; every other entry is unchanged; a valid cart stays valid |
| Checkout.ChangeQty | SalonManager/client/src/pages/checkout.tsx:33-45 | the entry is removed when count + delta ≤ 0, and set to count + delta otherwise; every other entry is unchanged; a valid cart stays valid |
| Checkout.ChangeQtyUndo | SalonManager/client/src/pages/checkout.tsx:33-45 | +1 followed by −1 gives back a valid cart |
| Checkout.Total | SalonManager/client/src/pages/checkout.tsx:47 | the empty cart totals 0 |
| Checkout.EmptyTotal | SalonManager/client/src/pages/checkout.tsx:47 | the sum over any item list for the empty cart is 0 |
| Checkout.TotalOverBump | SalonManager/client/src/pages/checkout.tsx:47 | one more unit of a name raises the sum by the prices listed under that name |
| Checkout.TotalOverNonNegative | SalonManager/client/src/pages/checkout.tsx:47 | a valid cart never sums below zero over non-negative prices |
| Checkout.CatalogueNamesDistinct | SalonManager/client/src/pages/checkout.tsx:11-24 | no two catalogue items share a name |
| Checkout.PriceOfDistinct | SalonManager/client/src/pages/checkout.tsx:11-24 | with distinct names, the prices under an item's name are just its own |
| Checkout.AddItemRaisesTotal | SalonManager/client/src/pages/checkout.tsx:47 | adding a catalogue item raises the total by exactly its price; a valid cart totals at least 0 |

## Left out

- **Timezone conversion.** The salon-timezone conversion and the weekday computation are replaced by `ToInstant` and `Weekday`. The code uses the current offset rather than the target date's, and this is not modelled.
- **Database I/O.** The queries themselves are not modelled: their results are sequences of rows. `updatedAt` and `createdAt` timestamps are not modelled.
- **Concurrency.** The check-then-insert of the overlap guard is not atomic; it is modelled as one sequential step, and nothing is claimed about concurrent requests.
- **Missing storage functions.** The routes call storage functions that are not part of this model: booking creation from an ISO start, the bookings list, the CRUD helpers, and the imported `updateBookingStatus({bookingId, salonId, to, reason})` that the status route calls (`routes.ts:13`, `routes.ts:394`). The validators therefore end at the arguments they would pass.
- **Slot output times.** ISO timestamp strings are compared as instants. `localeCompare` on stylist ids is code-unit order.
- JsValues.NumberOfString: decimal fractions and exponent forms are treated as NaN, because numbers are integers here. Numerals above 2^53 in magnitude are kept exact, where a double rounds them to a nearby representable value (9007199254740993 becomes 9007199254740992); the rounding changes the id's value but never whether it is finite.
- JsValues.StringOf: `String(n)` of a number of magnitude 10^21 or more is written in exponent form in JavaScript, and of an infinity as `Infinity`; the model writes the plain digits. Such text is never a status word, and `Number` of an array reads either spelling as the same value.
- **Query and body shapes.** Repeated query parameters, which arrive as arrays, are not modelled; query values are strings. Bodies that are not objects are not modelled either. Arrays inside a JSON body are modelled. Plain objects inside a body are read only as `[object Object]` and NaN.
- Salons.GetSalons: the latitude and longitude fields are left out, because converting them is floating point.
- **Mail delivery.** The transport and `sendMail` are I/O. The reminder's subject line, and its use of the customer status template, are not modelled. Neither are the locale date and time formatting.
- Mailer.NewBookingToSalon: the fixed page frame around the HTML body is represented by its title and body.
- Reminder.Process: a failing table update inside the loop is I/O and not modelled. Sending failures are swallowed by the mailer, so the mark is always set.
- **Scheduling.** The `setInterval` plumbing is reduced to the minute-5 tick predicate. How far into its minute a tick fires is not derived; it is the millisecond part of the clock reading, a parameter of the run.
- **Other settings.** The remaining derived settings in `env.ts` (port, URLs, SMTP) are left out, because they are plain lookups with defaults.
- **UI.** Checkout images and page rendering, the browser prompt and confirm dialogs, and the badge colour classes are not modelled beyond their data.

## Findings

| source | as written | input that shows it | evidently intended | confidence | as-written member | corrected member |
|---|---|---|---|---|---|---|
| SalonManager/server/storage.ts:749-751 | the storage method `updateBookingStatus(id, status)` applies any status whatever the current one, so a cancelled booking can be set back to confirmed. The PATCH validator (`routes.ts:375-399`) also forwards any of the four words, but it calls an imported `updateBookingStatus({...})` that is not part of this model, so whether the API path itself can reconfirm a cancelled booking depends on that code | booking a (stylist st1, 10:00–11:05, cancelled) and booking b (st1, 10:30–11:35, confirmed); setting a to confirmed gives two overlapping non-cancelled bookings of st1 | only the moves the salon board offers (requested → confirmed or declined, confirmed → cancelled), which keep no-double-booking | medium; not executed | BookingStore.UncancelCanDoubleBook | BookingStore.TransitionStatus |

=== FILE: admintoday.dfy ===
/**
  The salon's "today" board: the badge shown for each booking status and the
  status actions offered on a booking row. These actions are the only place
  where the booking lifecycle graph is written down:
  requested -> confirmed | declined, confirmed -> cancelled.
 */
module AdminToday {
  import opened Schema

  /** The badge text of each status. */
  function BadgeLabel(s: Status): string
  {
    match s
    case Requested => "Angefragt"
    case Confirmed => "Bestätigt"
    case Declined => "Abgelehnt"
    case Cancelled => "Storniert"
  }

  /** The badge colour classes of each status. */
  function BadgeClass(s: Status): string
  {
    match s
    case Requested => "bg-[var(--muted)] text-[var(--on-surface)]"
    case Confirmed => "bg-green-500/20 text-green-600 dark:text-green-300"
    case Declined => "bg-red-500/20 text-red-600 dark:text-red-300"
    case Cancelled => "bg-gray-500/20 text-gray-600 dark:text-gray-300"
  }

  /** Different statuses get different badges. */
  lemma BadgeLabelsDistinct(s: Status, t: Status)
    ensures s != t ==> BadgeLabel(s) != BadgeLabel(t)
  {
    if s != t {
      assert BadgeLabel(s)[0] != BadgeLabel(t)[0] || BadgeLabel(s)[1] != BadgeLabel(t)[1];
    }
  }

  /**
    One status button: the target status, whether a browser confirmation is
    asked first, and whether an optional reason is prompted for.
   */
  datatype StatusAction = StatusAction(to: Status, confirmFirst: bool, asksReason: bool)

  /** The status buttons of a booking row in the given status. */
  function Actions(s: Status): seq<StatusAction>
  {
    match s
    case Requested => [StatusAction(Confirmed, false, false), StatusAction(Declined, false, true)]
    case Confirmed => [StatusAction(Cancelled, true, true)]
    case Declined => []
    case Cancelled => []
  }

  /** The board offers a button moving a booking from `from` to `to`. */
  predicate Allowed(from: Status, to: Status)
  {
    exists a :: a in Actions(from) && a.to == to
  }

  /**
    The offered transitions are exactly requested -> confirmed,
    requested -> declined and confirmed -> cancelled.
   */
  lemma AllowedIsLifecycleGraph(from: Status, to: Status)
    ensures Allowed(from, to) <==>
      || (from == Requested && (to == Confirmed || to == Declined))
      || (from == Confirmed && to == Cancelled)
  {
    if from == Requested && to == Confirmed { assert Actions(from)[0].to == to; }
    if from == Requested && to == Declined { assert Actions(from)[1].to == to; }
    if from == Confirmed && to == Cancelled { assert Actions(from)[0].to == to; }
  }

  /** Declined and cancelled bookings offer no status action: both are terminal. */
  lemma TerminalStatuses(to: Status)
    ensures !Allowed(Declined, to) && !Allowed(Cancelled, to)
    ensures Actions(Declined) == [] && Actions(Cancelled) == []
  {
  }

  /** Declining and cancelling prompt for an optional reason; confirming does not. */
  lemma ReasonOnlyForDeclineAndCancel(s: Status, a: StatusAction)
    requires a in Actions(s)
    ensures a.asksReason <==> a.to == Declined || a.to == Cancelled
    ensures a.confirmFirst <==> a.to == Cancelled
  {
  }

  /** Position of a status along the lifecycle. */
  function Stage(s: Status): nat
  {
    match s
    case Requested => 0
    case Confirmed => 1
    case Declined => 2
    case Cancelled => 2
  }

  /** Consecutive statuses of `path` are offered transitions. */
  predicate IsPath(path: seq<Status>)
  {
    forall i :: 0 <= i < |path| - 1 ==> Allowed(path[i], path[i + 1])
  }

  /** Every offered transition moves strictly forward. */
  lemma AllowedMovesForward(from: Status, to: Status)
    requires Allowed(from, to)
    ensures Stage(from) < Stage(to)
  {
    AllowedIsLifecycleGraph(from, to);
  }

  /**
    Following offered transitions never comes back: a booking can never
    return to a status it has left (in particular a cancelled booking cannot
    be cancelled again, nor a declined one confirmed).
   */
  lemma {:induction false} NoPathReturns(path: seq<Status>)
    requires |path| >= 2 && IsPath(path)
    ensures Stage(path[0]) < Stage(path[|path| - 1])
    ensures path[0] != path[|path| - 1]
    decreases |path|
  {
    AllowedMovesForward(path[0], path[1]);
    if |path| > 2 {
      var rest := path[1..];
      assert IsPath(rest) by {
        forall i | 0 <= i < |rest| - 1 ensures Allowed(rest[i], rest[i + 1]) {
          assert rest[i] == path[i + 1] && rest[i + 1] == path[i + 2];
        }
      }
      NoPathReturns(rest);
    }
  }
}

=== FILE: availability.dfy ===
/**
  The slot query: given a snapshot of the salon's tables, the free slots of a
  service on one day, for one named stylist or for every stylist of the salon.
  Each table read becomes a filter over the snapshot's sequence of rows.
 */
module Availability {
  import opened Base
  import opened Schema
  import opened TimeWindow
  import opened SlotOrder

  /** The rows the query reads. */
  datatype Snapshot = Snapshot(
    services: seq<Service>, stylists: seq<Stylist>, workHours: seq<WorkHour>,
    absences: seq<Absence>, bookings: seq<Booking>)

  /** Salon, service, day number and the optional stylist filter of one slot query. */
  datatype SlotQuery = SlotQuery(salonId: Id, serviceId: Id, day: int, stylistId: Option<Id>)

  /** The service row with key `id`, whatever salon it belongs to. */
  function FindService(services: seq<Service>, id: Id): (r: Option<Service>)
    ensures r.Some? ==> r.value in services && r.value.id == id
    ensures r.None? <==> forall s :: s in services ==> s.id != id
  {
    if |services| == 0 then None
    else if services[0].id == id then Some(services[0])
    else
      assert forall s :: s in services ==> s == services[0] || s in services[1..];
      FindService(services[1..], id)
  }

  /** Some stylist row has key `id`. */
  predicate StylistExists(stylists: seq<Stylist>, id: Id)
  {
    exists st :: st in stylists && st.id == id
  }

  /** The ids of the stylists of a salon, active or not, in table order. */
  function SalonStylistIds(stylists: seq<Stylist>, salonId: Id): (r: seq<Id>)
    ensures forall id :: id in r <==> exists st :: st in stylists && st.salonId == salonId && st.id == id
  {
    if |stylists| == 0 then []
    else
      var rest := SalonStylistIds(stylists[1..], salonId);
      assert forall st :: st in stylists ==> st == stylists[0] || st in stylists[1..];
      (if stylists[0].salonId == salonId then [stylists[0].id] else []) + rest
  }

  /** The query names a stylist (an empty id counts as none). */
  predicate NamesStylist(q: SlotQuery)
  {
    q.stylistId.Some? && q.stylistId.value != ""
  }

  /** The candidate stylists: the named one if its row exists, otherwise every stylist of the salon. */
  function Roster(db: Snapshot, q: SlotQuery): seq<Id>
  {
    if NamesStylist(q) then
      if StylistExists(db.stylists, q.stylistId.value) then [q.stylistId.value] else []
    else SalonStylistIds(db.stylists, q.salonId)
  }

  predicate RuleFetched(w: WorkHour, salonId: Id, weekday: int, ids: seq<Id>)
  {
    w.salonId == salonId && w.weekday == weekday && w.stylistId in ids
  }

  predicate AbsenceFetched(a: Absence, salonId: Id, ids: seq<Id>, dayStart: int, dayEnd: int)
  {
    a.salonId == salonId && a.stylistId in ids && a.startsAt <= dayEnd && a.endsAt >= dayStart
  }

  predicate BookingFetched(b: Booking, salonId: Id, ids: seq<Id>, dayStart: int, dayEnd: int)
  {
    && b.salonId == salonId && b.stylistId.Some? && b.stylistId.value in ids
    && b.status != Cancelled && b.startsAt <= dayEnd && b.endsAt >= dayStart
  }

  /** The work-hour rules of the candidate stylists in this salon for the weekday. */
  function RulesFor(whs: seq<WorkHour>, salonId: Id, weekday: int, ids: seq<Id>): (r: seq<WorkHour>)
    ensures forall w :: w in r <==> w in whs && RuleFetched(w, salonId, weekday, ids)
  {
    if |whs| == 0 then []
    else
      assert forall w :: w in whs ==> w == whs[0] || w in whs[1..];
      (if RuleFetched(whs[0], salonId, weekday, ids) then [whs[0]] else [])
        + RulesFor(whs[1..], salonId, weekday, ids)
  }

  /** The absences of the candidate stylists in this salon that touch the day. */
  function AbsencesFor(abs: seq<Absence>, salonId: Id, ids: seq<Id>, dayStart: int, dayEnd: int)
    : (r: seq<Absence>)
    ensures forall a :: a in r <==> a in abs && AbsenceFetched(a, salonId, ids, dayStart, dayEnd)
  {
    if |abs| == 0 then []
    else
      assert forall a :: a in abs ==> a == abs[0] || a in abs[1..];
      (if AbsenceFetched(abs[0], salonId, ids, dayStart, dayEnd) then [abs[0]] else [])
        + AbsencesFor(abs[1..], salonId, ids, dayStart, dayEnd)
  }

  /** The non-cancelled bookings of the candidate stylists in this salon that touch the day. */
  function OccupyingFor(bks: seq<Booking>, salonId: Id, ids: seq<Id>, dayStart: int, dayEnd: int)
    : (r: seq<Booking>)
    ensures forall b :: b in r <==> b in bks && BookingFetched(b, salonId, ids, dayStart, dayEnd)
  {
    if |bks| == 0 then []
    else
      assert forall b :: b in bks ==> b == bks[0] || b in bks[1..];
      (if BookingFetched(bks[0], salonId, ids, dayStart, dayEnd) then [bks[0]] else [])
        + OccupyingFor(bks[1..], salonId, ids, dayStart, dayEnd)
  }

  predicate BlockedByAbsence(sl: Slot, abs: seq<Absence>)
  {
    exists a :: a in abs && a.stylistId == sl.stylistId && RangesOverlap(sl.start, sl.end, a.startsAt, a.endsAt)
  }

  predicate BlockedByBooking(sl: Slot, bks: seq<Booking>)
  {
    exists b :: b in bks && b.stylistId == Some(sl.stylistId) && RangesOverlap(sl.start, sl.end, b.startsAt, b.endsAt)
  }

  /** The candidates of one stylist that no fetched absence or booking of that stylist overlaps. */
  function FreeSlots(cands: seq<(int, int)>, stylistId: Id, abs: seq<Absence>, bks: seq<Booking>)
    : (r: seq<Slot>)
    ensures forall sl :: sl in r <==>
      (sl.start, sl.end) in cands && sl.stylistId == stylistId
      && !BlockedByAbsence(sl, abs) && !BlockedByBooking(sl, bks)
  {
    if |cands| == 0 then []
    else
      var sl := Slot(cands[0].0, cands[0].1, stylistId);
      assert forall c :: c in cands ==> c == cands[0] || c in cands[1..];
      (if BlockedByAbsence(sl, abs) || BlockedByBooking(sl, bks) then [] else [sl])
        + FreeSlots(cands[1..], stylistId, abs, bks)
  }

  /** The free slots one work-hour rule yields on the day; an empty or inverted window yields none. */
  function RuleSlots(w: WorkHour, day: int, durationMin: int, abs: seq<Absence>, bks: seq<Booking>)
    : seq<Slot>
  {
    var winStart := ToInstant(day, w.startMin);
    var winEnd := ToInstant(day, w.endMin);
    if winStart >= winEnd then []
    else FreeSlots(IterateSlots(winStart, winEnd, durationMin), w.stylistId, abs, bks)
  }

  /** The free slots of every rule, rule after rule. */
  function Scan(rules: seq<WorkHour>, day: int, durationMin: int, abs: seq<Absence>, bks: seq<Booking>)
    : (r: seq<Slot>)
    ensures forall sl :: sl in r <==> exists w :: w in rules && sl in RuleSlots(w, day, durationMin, abs, bks)
  {
    if |rules| == 0 then []
    else
      assert forall w :: w in rules ==> w == rules[0] || w in rules[1..];
      RuleSlots(rules[0], day, durationMin, abs, bks) + Scan(rules[1..], day, durationMin, abs, bks)
  }

  function DayStart(day: int): int { ToInstant(day, 0) }
  function DayEnd(day: int): int { ToInstant(day, 23 * 60 + 59) }

  /** The rules the query fetches once service and roster are known. */
  function QueryRules(db: Snapshot, q: SlotQuery): seq<WorkHour>
  {
    RulesFor(db.workHours, q.salonId, Weekday(q.day), Roster(db, q))
  }

  /**
    The free slots for the query, sorted by start and then stylist id; empty
    when the service is missing or inactive, when no stylist resolves, or when
    no work-hour rule matches the weekday.
   */
  function FindSlots(db: Snapshot, q: SlotQuery): (r: seq<Slot>)
    ensures FindService(db.services, q.serviceId).None? ==> r == []
    ensures FindService(db.services, q.serviceId).Some? && !FindService(db.services, q.serviceId).value.active
            ==> r == []
    ensures |Roster(db, q)| == 0 ==> r == []
    ensures |QueryRules(db, q)| == 0 ==> r == []
    ensures Sorted(r)
  {
    match FindService(db.services, q.serviceId)
    case None => []
    case Some(svc) =>
      if !svc.active then []
      else
        var ids := Roster(db, q);
        if |ids| == 0 then []
        else
          var wh := RulesFor(db.workHours, q.salonId, Weekday(q.day), ids);
          if |wh| == 0 then []
          else
            var abs := AbsencesFor(db.absences, q.salonId, ids, DayStart(q.day), DayEnd(q.day));
            var bks := OccupyingFor(db.bookings, q.salonId, ids, DayStart(q.day), DayEnd(q.day));
            SortSlots(Scan(wh, q.day, svc.durationMin, abs, bks))
  }

  // ---------------------------------------------------------------------------
  // Reference description of an offered slot
  // ---------------------------------------------------------------------------

  /** Rule `w` of a candidate stylist opens a window on the day whose grid contains `sl`. */
  ghost predicate RuleOffers(db: Snapshot, q: SlotQuery, durationMin: int, w: WorkHour, sl: Slot)
  {
    && RuleFetched(w, q.salonId, Weekday(q.day), Roster(db, q))
    && w.stylistId == sl.stylistId
    && ToInstant(q.day, w.startMin) < ToInstant(q.day, w.endMin)
    && exists k :: GridSlot(ToInstant(q.day, w.startMin), ToInstant(q.day, w.endMin), durationMin, k, sl.start, sl.end)
  }

  /** No absence and no non-cancelled booking of the slot's stylist in this salon overlaps the slot. */
  ghost predicate Clear(db: Snapshot, q: SlotQuery, sl: Slot)
  {
    && (forall a :: a in db.absences && a.salonId == q.salonId && a.stylistId == sl.stylistId
          ==> !RangesOverlap(sl.start, sl.end, a.startsAt, a.endsAt))
    && (forall b :: b in db.bookings && b.salonId == q.salonId && b.stylistId == Some(sl.stylistId)
          && b.status != Cancelled
          ==> !RangesOverlap(sl.start, sl.end, b.startsAt, b.endsAt))
  }

  /** The slot the query should offer: active service, a matching rule's grid point, nothing in the way. */
  ghost predicate Offered(db: Snapshot, q: SlotQuery, sl: Slot)
  {
    match FindService(db.services, q.serviceId)
    case None => false
    case Some(svc) =>
      && svc.active
      && (exists w :: w in db.workHours && RuleOffers(db, q, svc.durationMin, w, sl))
      && Clear(db, q, sl)
  }

  /**
    For a slot inside the day, the day-bounded reads miss nothing: it is blocked
    by a fetched row exactly when some row of its stylist in the salon overlaps it.
   */
  lemma FetchMissesNothing(db: Snapshot, q: SlotQuery, ids: seq<Id>, sl: Slot)
    requires sl.stylistId in ids
    requires DayStart(q.day) <= sl.start && sl.end <= ToInstant(q.day, MinutesPerDay)
    ensures var abs := AbsencesFor(db.absences, q.salonId, ids, DayStart(q.day), DayEnd(q.day));
            var bks := OccupyingFor(db.bookings, q.salonId, ids, DayStart(q.day), DayEnd(q.day));
            (!BlockedByAbsence(sl, abs) && !BlockedByBooking(sl, bks)) <==> Clear(db, q, sl)
  {
    var abs := AbsencesFor(db.absences, q.salonId, ids, DayStart(q.day), DayEnd(q.day));
    var bks := OccupyingFor(db.bookings, q.salonId, ids, DayStart(q.day), DayEnd(q.day));
    if !Clear(db, q, sl) {
      if a :| a in db.absences && a.salonId == q.salonId && a.stylistId == sl.stylistId
              && RangesOverlap(sl.start, sl.end, a.startsAt, a.endsAt) {
        assert a in abs;
      } else {
        var b :| b in db.bookings && b.salonId == q.salonId && b.stylistId == Some(sl.stylistId)
                 && b.status != Cancelled && RangesOverlap(sl.start, sl.end, b.startsAt, b.endsAt);
        assert b in bks;
      }
    }
  }

  /** The slots of rule `w` (a fetched rule) are its grid points that are clear. */
  lemma RuleSlotsExact(db: Snapshot, q: SlotQuery, durationMin: int, w: WorkHour, sl: Slot)
    requires RuleFetched(w, q.salonId, Weekday(q.day), Roster(db, q))
    ensures var ids := Roster(db, q);
            var abs := AbsencesFor(db.absences, q.salonId, ids, DayStart(q.day), DayEnd(q.day));
            var bks := OccupyingFor(db.bookings, q.salonId, ids, DayStart(q.day), DayEnd(q.day));
            sl in RuleSlots(w, q.day, durationMin, abs, bks)
            <==> RuleOffers(db, q, durationMin, w, sl) && Clear(db, q, sl)
  {
    var ids := Roster(db, q);
    var ws := ToInstant(q.day, w.startMin);
    var we := ToInstant(q.day, w.endMin);
    IterateSlotsExact(ws, we, durationMin, sl.start, sl.end);
    if ws < we && w.stylistId == sl.stylistId && (sl.start, sl.end) in IterateSlots(ws, we, durationMin) {
      var k :| GridSlot(ws, we, durationMin, k, sl.start, sl.end);
      assert DayStart(q.day) <= ws <= sl.start;
      assert sl.end <= we <= ToInstant(q.day, MinutesPerDay);
      FetchMissesNothing(db, q, ids, sl);
    }
  }

  /**
    Soundness and completeness of the slot query: a slot is returned exactly
    when the service is active, a work-hour rule of a candidate stylist for the
    weekday has it on its 15-minute grid inside a non-empty window, and no
    absence or non-cancelled booking of that stylist in the salon overlaps it.
   */
  lemma FindSlotsExact(db: Snapshot, q: SlotQuery, sl: Slot)
    ensures sl in FindSlots(db, q) <==> Offered(db, q, sl)
  {
    match FindService(db.services, q.serviceId)
    case None =>
    case Some(svc) =>
      if svc.active {
        var ids := Roster(db, q);
        var wh := RulesFor(db.workHours, q.salonId, Weekday(q.day), ids);
        var abs := AbsencesFor(db.absences, q.salonId, ids, DayStart(q.day), DayEnd(q.day));
        var bks := OccupyingFor(db.bookings, q.salonId, ids, DayStart(q.day), DayEnd(q.day));
        if |ids| > 0 && |wh| > 0 {
          SortSlotsSameMembers(Scan(wh, q.day, svc.durationMin, abs, bks), sl);
        }
        if sl in FindSlots(db, q) {
          var w :| w in wh && sl in RuleSlots(w, q.day, svc.durationMin, abs, bks);
          RuleSlotsExact(db, q, svc.durationMin, w, sl);
        }
        if Offered(db, q, sl) {
          var w :| w in db.workHours && RuleOffers(db, q, svc.durationMin, w, sl);
          assert w in wh;
          RuleSlotsExact(db, q, svc.durationMin, w, sl);
        }
      }
  }

  /** Every returned slot lasts the service duration plus the buffer and lies inside a rule window of its stylist. */
  lemma FindSlotsShape(db: Snapshot, q: SlotQuery, sl: Slot)
    requires sl in FindSlots(db, q)
    ensures FindService(db.services, q.serviceId).Some?
    ensures sl.end - sl.start == FindService(db.services, q.serviceId).value.durationMin + BufferMin
    ensures exists w :: w in db.workHours && w.stylistId == sl.stylistId && w.weekday == Weekday(q.day)
              && ToInstant(q.day, w.startMin) <= sl.start && sl.end <= ToInstant(q.day, w.endMin)
  {
    FindSlotsExact(db, q, sl);
    var svc := FindService(db.services, q.serviceId).value;
    var w :| w in db.workHours && RuleOffers(db, q, svc.durationMin, w, sl);
    var k :| GridSlot(ToInstant(q.day, w.startMin), ToInstant(q.day, w.endMin), svc.durationMin, k, sl.start, sl.end);
    assert w.weekday == Weekday(q.day);
  }

  lemma {:induction false} OccupyingIgnoresCancelled(
    bks: seq<Booking>, b: Booking, salonId: Id, ids: seq<Id>, dayStart: int, dayEnd: int)
    requires b.status == Cancelled
    ensures OccupyingFor(bks + [b], salonId, ids, dayStart, dayEnd) == OccupyingFor(bks, salonId, ids, dayStart, dayEnd)
    decreases |bks|
  {
    if |bks| == 0 {
      assert bks + [b] == [b];
    } else {
      assert (bks + [b])[0] == bks[0];
      assert (bks + [b])[1..] == bks[1..] + [b];
      OccupyingIgnoresCancelled(bks[1..], b, salonId, ids, dayStart, dayEnd);
    }
  }

  /** A cancelled booking never blocks a slot: adding one leaves the query's answer unchanged. */
  lemma CancelledBookingNeverBlocks(db: Snapshot, q: SlotQuery, b: Booking)
    requires b.status == Cancelled
    ensures FindSlots(db.(bookings := db.bookings + [b]), q) == FindSlots(db, q)
  {
    var db' := db.(bookings := db.bookings + [b]);
    assert Roster(db', q) == Roster(db, q);
    OccupyingIgnoresCancelled(db.bookings, b, q.salonId, Roster(db, q), DayStart(q.day), DayEnd(q.day));
  }
}

=== FILE: base.dfy ===
/** Failure-compatible wrappers shared by every module of the model. */
module Base {

  /** A value that may be absent: JavaScript's `undefined`/`null`, a missing row, a missing file. */
  datatype Option<T> = None | Some(value: T)

  /** The outcome of an operation that can fail with a typed error. */
  datatype Result<T, E> = Ok(value: T) | Err(error: E)
}

=== FILE: bookingflow.dfy ===
/**
  How the slot query and the booking guard fit together: a slot the query
  offers can be booked, because the query blocks every interval the guard
  would refuse.
 */
module BookingFlow {
  import opened Base
  import opened Schema
  import opened TimeWindow
  import opened SlotOrder
  import opened Availability
  import opened BookingStore

  /**
    Booking an offered slot for its stylist never hits the overlap guard,
    provided every booking of that stylist belongs to the queried salon (the
    query only reads that salon's bookings, the guard reads all of them).
   */
  lemma OfferedSlotIsCommittable(db: Snapshot, q: SlotQuery, sl: Slot, input: BookingInput, newId: Id)
    requires sl in FindSlots(db, q)
    requires forall b :: b in db.bookings && b.stylistId == Some(sl.stylistId) ==> b.salonId == q.salonId
    requires input.stylistId == Some(sl.stylistId) && input.startsAt == sl.start && input.endsAt == sl.end
    ensures !HasConflict(db.bookings, InsertBooking(newId, input))
  {
    FindSlotsExact(db, q, sl);
    var nb := InsertBooking(newId, input);
    forall i | 0 <= i < |db.bookings| ensures !Conflicts(db.bookings[i], nb) {
      var e := db.bookings[i];
      if e.stylistId == nb.stylistId && e.status != Cancelled {
        assert e in db.bookings;
        assert !RangesOverlap(sl.start, sl.end, e.startsAt, e.endsAt);
      }
    }
  }

  /**
    Without that proviso the guard can refuse an offered slot: a booking of
    the same stylist in another salon is invisible to the query but not to
    the guard.
   */
  lemma OtherSalonBookingBlocksCommit()
    ensures var db := Snapshot(
              [Service("sv", "s1", "Cut", 60, 5000, true)], [Stylist("st", "s1", "u", "Ann", None, true, false)],
              [WorkHour("w", "s1", "st", Weekday(0), 540, 1080)], [],
              [Booking("b", "s2", "c", Some("st"), "sv", 540, 605, Confirmed, false, None)]);
            var q := SlotQuery("s1", "sv", 0, None);
            var input := BookingInput("s1", "c2", Some("st"), "sv", 540, 605, None, None, None);
            Slot(540, 605, "st") in FindSlots(db, q) && HasConflict(db.bookings, InsertBooking("n", input))
  {
    var db := Snapshot(
      [Service("sv", "s1", "Cut", 60, 5000, true)], [Stylist("st", "s1", "u", "Ann", None, true, false)],
      [WorkHour("w", "s1", "st", Weekday(0), 540, 1080)], [],
      [Booking("b", "s2", "c", Some("st"), "sv", 540, 605, Confirmed, false, None)]);
    var q := SlotQuery("s1", "sv", 0, None);
    var sl := Slot(540, 605, "st");
    var w := db.workHours[0];
    assert Roster(db, q) == ["st"] by {
      assert db.stylists[0] in db.stylists;
    }
    assert GridSlot(ToInstant(0, 540), ToInstant(0, 1080), 60, 0, sl.start, sl.end);
    assert RuleOffers(db, q, 60, w, sl);
    assert Clear(db, q, sl);
    FindSlotsExact(db, q, sl);
    var input := BookingInput("s1", "c2", Some("st"), "sv", 540, 605, None, None, None);
    assert Conflicts(db.bookings[0], InsertBooking("n", input));
  }
}

=== FILE: bookingstore.dfy ===
/**
  The booking table as a sequence of rows: the overlap guard applied before an
  insert, the partial update by key and the status update built on it, and
  the invariant the guard is there for: no two non-cancelled bookings of one
  stylist overlap.
 */
module BookingStore {
  import opened Base
  import opened Schema
  import opened TimeWindow
  import AdminToday

  /** Only bookings that are not cancelled hold their time range. */
  predicate Occupying(b: Booking)
  {
    b.status != Cancelled
  }

  /** The stylist reference is truthy: present and not the empty string. */
  predicate Assigned(b: Booking)
  {
    b.stylistId.Some? && b.stylistId.value != ""
  }

  /** Two occupying bookings of the same stylist whose ranges overlap. */
  predicate Clash(a: Booking, b: Booking)
  {
    && Occupying(a) && Occupying(b) && Assigned(a) && a.stylistId == b.stylistId
    && RangesOverlap(a.startsAt, a.endsAt, b.startsAt, b.endsAt)
  }

  /** No two non-cancelled bookings of one stylist overlap. */
  predicate NoDoubleBooking(store: seq<Booking>)
  {
    forall i, j :: 0 <= i < j < |store| ==> !Clash(store[i], store[j])
  }

  /** Row `existing` is returned by the overlap query for a new booking `nb`. */
  predicate Conflicts(existing: Booking, nb: Booking)
  {
    && existing.stylistId == nb.stylistId
    && existing.startsAt < nb.endsAt && existing.endsAt > nb.startsAt
    && existing.status != Cancelled
  }

  /** The insert of `nb` is refused: it names a stylist and some stored row conflicts with it. */
  predicate HasConflict(store: seq<Booking>, nb: Booking)
  {
    Assigned(nb) && exists i :: 0 <= i < |store| && Conflicts(store[i], nb)
  }

  datatype CreateOutcome = Created(store: seq<Booking>, booking: Booking) | Overlap

  /**
    Inserts the booking described by `input` under the generated key `newId`,
    unless it names a stylist who already has a non-cancelled booking
    overlapping `[startsAt, endsAt)`; then the store is left as it was and the
    outcome is `Overlap`. A booking without a stylist is never checked.
   */
  method CreateBooking(store: seq<Booking>, input: BookingInput, newId: Id) returns (out: CreateOutcome)
    ensures out.Overlap? <==> HasConflict(store, InsertBooking(newId, input))
    ensures out.Created? ==> out.booking == InsertBooking(newId, input) && out.store == store + [out.booking]
    ensures out.Created? && NoDoubleBooking(store) ==> NoDoubleBooking(out.store)
  {
    var nb := InsertBooking(newId, input);
    if Assigned(nb) {
      var conflicts: seq<Id> := [];
      var i := 0;
      while i < |store|
        invariant 0 <= i <= |store|
        invariant |conflicts| > 0 <==> exists j :: 0 <= j < i && Conflicts(store[j], nb)
      {
        if Conflicts(store[i], nb) {
          conflicts := conflicts + [store[i].id];
        }
        i := i + 1;
      }
      if |conflicts| > 0 {
        return Overlap;
      }
    }
    out := Created(store + [nb], nb);
    AppendKeepsNoDoubleBooking(store, nb);
  }

  /** Appending a booking the guard lets through keeps the invariant. */
  lemma AppendKeepsNoDoubleBooking(store: seq<Booking>, nb: Booking)
    requires !HasConflict(store, nb)
    ensures NoDoubleBooking(store) ==> NoDoubleBooking(store + [nb])
  {
    if NoDoubleBooking(store) {
      var s := store + [nb];
      forall i, j | 0 <= i < j < |s| ensures !Clash(s[i], s[j]) {
        if j == |store| {
          assert s[i] == store[i] && s[j] == nb;
          assert !Conflicts(store[i], nb) || !Assigned(nb);
        }
      }
    }
  }

  /** A partial update: each present field of the insert shape replaces the stored one. */
  datatype BookingPatch = BookingPatch(
    salonId: Option<Id>, customerId: Option<Id>, stylistId: Option<Option<Id>>, serviceId: Option<Id>,
    startsAt: Option<int>, endsAt: Option<int>,
    status: Option<Status>, reminderSent: Option<bool>, note: Option<Option<string>>)

  function StatusPatch(s: Status): BookingPatch
  {
    BookingPatch(None, None, None, None, None, None, Some(s), None, None)
  }

  function ReminderSentPatch(): BookingPatch
  {
    BookingPatch(None, None, None, None, None, None, None, Some(true), None)
  }

  function ApplyPatch(b: Booking, p: BookingPatch): Booking
  {
    b.(salonId := OrDefault(p.salonId, b.salonId),
       customerId := OrDefault(p.customerId, b.customerId),
       serviceId := OrDefault(p.serviceId, b.serviceId),
       stylistId := OrDefault(p.stylistId, b.stylistId),
       startsAt := OrDefault(p.startsAt, b.startsAt),
       endsAt := OrDefault(p.endsAt, b.endsAt),
       status := OrDefault(p.status, b.status),
       reminderSent := OrDefault(p.reminderSent, b.reminderSent),
       note := OrDefault(p.note, b.note))
  }

  /** The first row with key `id`, if any. */
  function FindBooking(store: seq<Booking>, id: Id): (r: Option<Booking>)
    ensures r.Some? ==> r.value in store && r.value.id == id
    ensures r.None? <==> forall i :: 0 <= i < |store| ==> store[i].id != id
  {
    if |store| == 0 then None
    else if store[0].id == id then Some(store[0])
    else
      assert forall i :: 1 <= i < |store| ==> store[i] == store[1..][i - 1];
      FindBooking(store[1..], id)
  }

  /**
    `UPDATE bookings SET ... WHERE id = ...`: every row with key `id` gets the
    patch, every other row is left as it was; the first updated row is returned.
   */
  function UpdateBooking(store: seq<Booking>, id: Id, p: BookingPatch): (r: (seq<Booking>, Option<Booking>))
    ensures |r.0| == |store|
    ensures forall i :: 0 <= i < |store| && store[i].id != id ==> r.0[i] == store[i]
    ensures forall i :: 0 <= i < |store| && store[i].id == id ==> r.0[i] == ApplyPatch(store[i], p)
    ensures r.1.Some? <==> exists i :: 0 <= i < |store| && store[i].id == id
    ensures r.1.Some? ==> r.1.value == ApplyPatch(FindBooking(store, id).value, p)
    decreases |store|
  {
    if |store| == 0 then ([], None)
    else
      var rest := UpdateBooking(store[1..], id, p);
      var row := if store[0].id == id then ApplyPatch(store[0], p) else store[0];
      var returned := if store[0].id == id then Some(row) else rest.1;
      assert forall i :: 1 <= i < |store| ==> store[i] == store[1..][i - 1];
      ([row] + rest.0, returned)
  }

  /**
    The status update: only `status` changes, on the rows with key `id`;
    times, stylist and every other field stay as they were.
   */
  function UpdateBookingStatus(store: seq<Booking>, id: Id, to: Status): (r: (seq<Booking>, Option<Booking>))
    ensures |r.0| == |store|
    ensures forall i :: 0 <= i < |store| ==> r.0[i].(status := store[i].status) == store[i]
    ensures forall i :: 0 <= i < |store| ==> r.0[i].status == if store[i].id == id then to else store[i].status
    ensures r.1.Some? <==> exists i :: 0 <= i < |store| && store[i].id == id
  {
    UpdateBooking(store, id, StatusPatch(to))
  }

  /** Cancelling any booking keeps the invariant: it only frees time. */
  lemma CancelKeepsNoDoubleBooking(store: seq<Booking>, id: Id)
    requires NoDoubleBooking(store)
    ensures NoDoubleBooking(UpdateBookingStatus(store, id, Cancelled).0)
  {
    var s := UpdateBookingStatus(store, id, Cancelled).0;
    forall i, j | 0 <= i < j < |s| ensures !Clash(s[i], s[j]) {
      assert !Clash(store[i], store[j]);
    }
  }

  /**
    The status update checks no lifecycle rule: setting a cancelled booking
    back to confirmed can create a double booking.
   */
  lemma UncancelCanDoubleBook()
    ensures var a := Booking("a", "s1", "c1", Some("st1"), "sv1", 600, 665, Cancelled, false, None);
            var b := Booking("b", "s1", "c2", Some("st1"), "sv1", 630, 695, Confirmed, false, None);
            NoDoubleBooking([a, b]) && !NoDoubleBooking(UpdateBookingStatus([a, b], "a", Confirmed).0)
  {
    var a := Booking("a", "s1", "c1", Some("st1"), "sv1", 600, 665, Cancelled, false, None);
    var b := Booking("b", "s1", "c2", Some("st1"), "sv1", 630, 695, Confirmed, false, None);
    var s := UpdateBookingStatus([a, b], "a", Confirmed).0;
    assert s[0] == a.(status := Confirmed) && s[1] == b;
    assert Clash(s[0], s[1]);
  }

  /** Keys are unique, as the primary key guarantees. */
  predicate UniqueIds(store: seq<Booking>)
  {
    forall i, j :: 0 <= i < j < |store| ==> store[i].id != store[j].id
  }

  datatype TransitionError = NotFound | InvalidTransition(from: Status, to: Status)

  /**
    `s` differs from `store` in statuses only, and no row of `s` occupies
    time that its original did not.
   */
  predicate FreesOnly(store: seq<Booking>, s: seq<Booking>)
  {
    && |s| == |store|
    && forall k :: 0 <= k < |s| ==>
         s[k].(status := store[k].status) == store[k] && (Occupying(s[k]) ==> Occupying(store[k]))
  }

  lemma FreesOnlyKeepsNoDoubleBooking(store: seq<Booking>, s: seq<Booking>)
    requires FreesOnly(store, s)
    ensures NoDoubleBooking(store) ==> NoDoubleBooking(s)
  {
    if NoDoubleBooking(store) {
      forall i, j | 0 <= i < j < |s| ensures !Clash(s[i], s[j]) {
        assert !Clash(store[i], store[j]);
      }
    }
  }

  /**
    A move on the lifecycle graph starts from an occupying status, so with
    unique keys the update never makes a booking occupy time again.
   */
  lemma GuardedUpdateFreesOnly(store: seq<Booking>, id: Id, to: Status)
    requires FindBooking(store, id).Some? && AdminToday.Allowed(FindBooking(store, id).value.status, to)
    ensures UniqueIds(store) ==> FreesOnly(store, UpdateBookingStatus(store, id, to).0)
    ensures UniqueIds(store) && NoDoubleBooking(store) ==> NoDoubleBooking(UpdateBookingStatus(store, id, to).0)
  {
    if UniqueIds(store) {
      var b := FindBooking(store, id).value;
      AdminToday.AllowedIsLifecycleGraph(b.status, to);
      var m :| 0 <= m < |store| && store[m] == b;
      var s := UpdateBookingStatus(store, id, to).0;
      forall k | 0 <= k < |s| && store[k].id == id ensures Occupying(store[k]) {
        assert k == m;
      }
      FreesOnlyKeepsNoDoubleBooking(store, s);
    }
  }

  /**
    The status update guarded by the lifecycle graph the salon board offers:
    a booking that does not exist is `NotFound`, a move outside
    requested -> confirmed | declined, confirmed -> cancelled is refused.
    With unique keys an accepted move keeps no-double-booking.
   */
  function TransitionStatus(store: seq<Booking>, id: Id, to: Status)
    : (r: Result<(seq<Booking>, Booking), TransitionError>)
    ensures r.Err? && r.error.NotFound? <==> FindBooking(store, id).None?
    ensures r.Err? && r.error.InvalidTransition? <==>
      FindBooking(store, id).Some? && !AdminToday.Allowed(FindBooking(store, id).value.status, to)
    ensures r.Ok? ==> r.value.0 == UpdateBookingStatus(store, id, to).0 && r.value.1.status == to
    ensures r.Ok? && UniqueIds(store) && NoDoubleBooking(store) ==> NoDoubleBooking(r.value.0)
  {
    match FindBooking(store, id)
    case None => Err(NotFound)
    case Some(b) =>
      if !AdminToday.Allowed(b.status, to) then Err(InvalidTransition(b.status, to))
      else
        var u := UpdateBookingStatus(store, id, to);
        GuardedUpdateFreesOnly(store, id, to);
        Ok((u.0, u.1.value))
  }

  /** A declined booking still holds its time: only cancellation frees a range. */
  lemma DeclinedStillOccupies(b: Booking)
    requires b.status == Declined
    ensures Occupying(b)
  {
  }
}

=== FILE: checkout.dfy ===
/**
  The checkout cart: a fixed catalogue, a cart mapping item names to
  quantities, the two reducers the page's buttons dispatch, and the total.
 */
module Checkout {

  datatype Item = Item(name: string, price: int)

  /** The twelve products and services offered, with their prices. */
  const Catalogue: seq<Item> := [
    Item("Haircut", 50), Item("Coloring", 80), Item("Styling", 40), Item("Manicure", 30),
    Item("Pedicure", 40), Item("Facial", 60), Item("Massage", 70), Item("Waxing", 25),
    Item("Hair Treatment", 55), Item("Makeup", 45), Item("Product A", 20), Item("Product B", 25)]

  type Cart = map<string, int>

  /** `cart[name] || 0`. */
  function Qty(cart: Cart, name: string): (q: int)
    ensures name !in cart ==> q == 0
    ensures name in cart ==> q == cart[name]
  {
    if name in cart then cart[name] else 0
  }

  /** Every entry of the cart holds at least one unit. */
  predicate ValidCart(cart: Cart)
  {
    forall n :: n in cart ==> cart[n] >= 1
  }

  /** One more unit of `item`; every other entry is left as it was. */
  function AddItem(cart: Cart, item: Item): (r: Cart)
    ensures item.name in r && r[item.name] == Qty(cart, item.name) + 1
    ensures forall n :: n != item.name ==> (n in r <==> n in cart) && (n in cart ==> r[n] == cart[n])
    ensures ValidCart(cart) ==> ValidCart(r)
  {
    cart[item.name := Qty(cart, item.name) + 1]
  }

  /**
    Moves the quantity of `name` by `delta`; a result of zero or less
    removes the entry. Every other entry is left as it was.
   */
  function ChangeQty(cart: Cart, name: string, delta: int): (r: Cart)
    ensures Qty(cart, name) + delta <= 0 ==> name !in r
    ensures Qty(cart, name) + delta > 0 ==> name in r && r[name] == Qty(cart, name) + delta
    ensures forall n :: n != name ==> (n in r <==> n in cart) && (n in cart ==> r[n] == cart[n])
    ensures ValidCart(cart) ==> ValidCart(r)
  {
    var next := Qty(cart, name) + delta;
    if next <= 0 then cart - {name} else cart[name := next]
  }

  /** Adding a unit and taking it away again gives back the cart. */
  lemma ChangeQtyUndo(cart: Cart, name: string)
    requires ValidCart(cart)
    ensures ChangeQty(ChangeQty(cart, name, 1), name, -1) == cart
  {
    var r := ChangeQty(ChangeQty(cart, name, 1), name, -1);
    assert forall n :: n in r <==> n in cart;
  }

  /** Sum over `items` of quantity times price. */
  function TotalOver(items: seq<Item>, cart: Cart): int
    decreases |items|
  {
    if |items| == 0 then 0 else TotalOver(items[..|items| - 1], cart) + Qty(cart, items[|items| - 1].name) * items[|items| - 1].price
  }

  /** The amount shown: every catalogue line's quantity times its price. */
  function Total(cart: Cart): (t: int)
    ensures cart == map[] ==> t == 0
  {
    EmptyTotal(Catalogue);
    TotalOver(Catalogue, cart)
  }

  lemma {:induction false} EmptyTotal(items: seq<Item>)
    ensures TotalOver(items, map[]) == 0
    decreases |items|
  {
    if |items| > 0 { EmptyTotal(items[..|items| - 1]); }
  }

  /** The sum of the prices of the items named `name`. */
  function PriceOf(items: seq<Item>, name: string): int
    decreases |items|
  {
    if |items| == 0 then 0
    else PriceOf(items[..|items| - 1], name) + if items[|items| - 1].name == name then items[|items| - 1].price else 0
  }

  /** Raising the quantity of `name` by one raises the sum by the prices of the items of that name. */
  lemma {:induction false} TotalOverBump(items: seq<Item>, cart: Cart, name: string)
    ensures TotalOver(items, cart[name := Qty(cart, name) + 1]) == TotalOver(items, cart) + PriceOf(items, name)
    decreases |items|
  {
    if |items| > 0 {
      TotalOverBump(items[..|items| - 1], cart, name);
    }
  }

  /** A valid cart never totals below zero, since every catalogue price is positive. */
  lemma {:induction false} TotalOverNonNegative(items: seq<Item>, cart: Cart)
    requires ValidCart(cart)
    requires forall i :: 0 <= i < |items| ==> items[i].price >= 0
    ensures TotalOver(items, cart) >= 0
    decreases |items|
  {
    if |items| > 0 {
      TotalOverNonNegative(items[..|items| - 1], cart);
      var last := items[|items| - 1];
      assert Qty(cart, last.name) >= 0;
      assert Qty(cart, last.name) * last.price >= 0;
    }
  }

  /** No two items share a name. */
  predicate DistinctNames(items: seq<Item>)
  {
    forall i, j :: 0 <= i < j < |items| ==> items[i].name != items[j].name
  }

  /** Length, first and last letter: enough to tell the catalogue's names apart. */
  function Signature(name: string): (int, char, char)
  {
    if |name| == 0 then (0, ' ', ' ') else (|name|, name[0], name[|name| - 1])
  }

  lemma CatalogueNamesDistinct()
    ensures DistinctNames(Catalogue)
  {
    var sigs := [(7, 'H', 't'), (8, 'C', 'g'), (7, 'S', 'g'), (8, 'M', 'e'), (8, 'P', 'e'), (6, 'F', 'l'),
                 (7, 'M', 'e'), (6, 'W', 'g'), (14, 'H', 't'), (6, 'M', 'p'), (9, 'P', 'A'), (9, 'P', 'B')];
    forall i | 0 <= i < |Catalogue| ensures Signature(Catalogue[i].name) == sigs[i] {
    }
    forall i, j | 0 <= i < j < |Catalogue| ensures Catalogue[i].name != Catalogue[j].name {
      assert sigs[i] != sigs[j];
    }
  }

  /** With distinct names, the prices under an item's name are its own price. */
  lemma {:induction false} PriceOfDistinct(items: seq<Item>, i: nat)
    requires DistinctNames(items) && i < |items|
    ensures PriceOf(items, items[i].name) == items[i].price
    decreases |items|
  {
    var init := items[..|items| - 1];
    if i < |items| - 1 {
      assert init[i] == items[i];
      PriceOfDistinct(init, i);
    } else {
      PriceOfAbsent(init, items[i].name);
    }
  }

  lemma {:induction false} PriceOfAbsent(items: seq<Item>, name: string)
    requires forall j :: 0 <= j < |items| ==> items[j].name != name
    ensures PriceOf(items, name) == 0
    decreases |items|
  {
    if |items| > 0 { PriceOfAbsent(items[..|items| - 1], name); }
  }

  /** Adding a catalogue item raises the total by exactly its price; a valid cart totals at least zero. */
  lemma AddItemRaisesTotal(cart: Cart, i: nat)
    requires i < |Catalogue|
    ensures Total(AddItem(cart, Catalogue[i])) == Total(cart) + Catalogue[i].price
    ensures ValidCart(cart) ==> Total(cart) >= 0
  {
    var item := Catalogue[i];
    TotalOverBump(Catalogue, cart, item.name);
    CatalogueNamesDistinct();
    PriceOfDistinct(Catalogue, i);
    if ValidCart(cart) { TotalOverNonNegative(Catalogue, cart); }
  }
}

=== FILE: env.dfy ===
/**
  Start-up configuration: `KEY=VALUE` lines read from `.env` and then from
  `.env.<NODE_ENV>` into the process environment without overwriting
  anything already set, the boolean flag reading, and the allowed-origins list.
  The environment is a map from names to values; a file is its text, or
  nothing when it is missing or unreadable.
 */
module Env {
  import opened Base
  import opened Strings

  type Environment = map<string, string>

  // ---------------------------------------------------------------------------
  // Lines
  // ---------------------------------------------------------------------------

  /** `p` without one trailing carriage return. */
  function DropCR(p: string): (r: string)
    ensures p == r + "\r" || (p == r && (|p| == 0 || p[|p| - 1] != '\r'))
  {
    if |p| > 0 && p[|p| - 1] == '\r' then p[..|p| - 1] else p
  }

  /** `data.split(/\r?\n/)`: pieces between line feeds, each dropping the carriage return before its line feed. */
  function SplitLines(data: string): (r: seq<string>)
    ensures |r| == |Split(data, '\n')| >= 1
    ensures forall i :: 0 <= i < |r| ==> '\n' !in r[i]
  {
    var ps := Split(data, '\n');
    seq(|ps|, i requires 0 <= i < |ps| => if i < |ps| - 1 then DropCR(ps[i]) else ps[i])
  }

  /** The text of `lines` with every line but the last ended by `"\r\n"`. */
  function JoinCRLF(lines: seq<string>): string
  {
    Join(seq(|lines|, i requires 0 <= i < |lines| => if i < |lines| - 1 then lines[i] + "\r" else lines[i]), '\n')
  }

  /** Lines written with CRLF endings are read back as written. */
  lemma SplitLinesCRLF(lines: seq<string>)
    requires |lines| >= 1
    requires forall i :: 0 <= i < |lines| ==> '\n' !in lines[i]
    ensures SplitLines(JoinCRLF(lines)) == lines
  {
    var ps := seq(|lines|, i requires 0 <= i < |lines| => if i < |lines| - 1 then lines[i] + "\r" else lines[i]);
    SplitJoin(ps, '\n');
    var r := SplitLines(JoinCRLF(lines));
    forall i | 0 <= i < |lines| ensures r[i] == lines[i] {
      if i < |lines| - 1 { assert (lines[i] + "\r")[..|lines[i]|] == lines[i]; }
    }
  }

  /** Lines written with LF endings are read back as written, unless a line itself ends in a carriage return. */
  lemma SplitLinesLF(lines: seq<string>)
    requires |lines| >= 1
    requires forall i :: 0 <= i < |lines| ==> '\n' !in lines[i]
    requires forall i :: 0 <= i < |lines| - 1 ==> |lines[i]| == 0 || lines[i][|lines[i]| - 1] != '\r'
    ensures SplitLines(Join(lines, '\n')) == lines
  {
    SplitJoin(lines, '\n');
  }

  predicate IsKeyChar(c: char)
  {
    ('A' <= c <= 'Z') || IsDigit(c) || c == '_'
  }

  /** A variable name the loader accepts: upper-case letters, digits and underscores, at least one. */
  predicate ValidKey(k: string)
  {
    |k| >= 1 && forall i :: 0 <= i < |k| ==> IsKeyChar(k[i])
  }

  /** The characters a regular-expression `.` does not match. */
  predicate IsLineTerminator(c: char)
  {
    c == '\n' || c == '\r' || c == '\U{2028}' || c == '\U{2029}'
  }

  predicate ValidValue(v: string)
  {
    forall i :: 0 <= i < |v| ==> !IsLineTerminator(v[i])
  }

  /** The position of the first `c` in `s`. */
  function FirstIndex(s: string, c: char): (r: Option<nat>)
    ensures r.None? <==> c !in s
    ensures r.Some? ==> r.value < |s| && s[r.value] == c && c !in s[..r.value]
    decreases |s|
  {
    if |s| == 0 then None
    else if s[0] == c then Some(0)
    else
      match FirstIndex(s[1..], c)
      case None => None
      case Some(k) =>
        assert s[..k + 1] == [s[0]] + s[1..][..k];
        Some(k + 1)
  }

  /** `line.match(/^([A-Z0-9_]+)=(.*)$/)`: the name before the first `=` and everything after it. */
  function ParseLine(line: string): (r: Option<(string, string)>)
    ensures r.Some? ==> ValidKey(r.value.0) && ValidValue(r.value.1) && line == r.value.0 + "=" + r.value.1
  {
    match FirstIndex(line, '=')
    case None => None
    case Some(k) =>
      var key := line[..k];
      var value := line[k + 1..];
      assert line == key + "=" + value;
      if ValidKey(key) && ValidValue(value) then Some((key, value)) else None
  }

  /** A line is an assignment exactly when it is a valid name, `=`, and a value without line breaks. */
  lemma ParseLineExact(line: string, key: string, value: string)
    ensures ParseLine(line) == Some((key, value)) <==>
            line == key + "=" + value && ValidKey(key) && ValidValue(value)
  {
    if line == key + "=" + value && ValidKey(key) {
      assert '=' !in key by {
        forall i | 0 <= i < |key| ensures key[i] != '=' { assert IsKeyChar(key[i]); }
      }
      assert line[|key|] == '=';
      assert line[..|key|] == key;
      var k := FirstIndex(line, '=');
      assert k == Some(|key|);
      assert line[|key| + 1..] == value;
    }
  }

  // ---------------------------------------------------------------------------
  // Loading
  // ---------------------------------------------------------------------------

  /** The value the first assignment of `key` among `lines` gives it. */
  function FirstValue(lines: seq<string>, key: string): Option<string>
    decreases |lines|
  {
    if |lines| == 0 then None
    else if ParseLine(lines[0]).Some? && ParseLine(lines[0]).value.0 == key then Some(ParseLine(lines[0]).value.1)
    else FirstValue(lines[1..], key)
  }

  /** Applies one line: an assignment of a name not yet set. */
  function Assign(env: Environment, line: string): Environment
  {
    match ParseLine(line)
    case Some((k, v)) => if k in env then env else env[k := v]
    case None => env
  }

  /**
    Applies the lines in order. A name already set keeps its value; any other
    name gets the value of its first assignment among the lines.
   */
  function ApplyLines(env: Environment, lines: seq<string>): (r: Environment)
    ensures forall k :: k in r <==> k in env || FirstValue(lines, k).Some?
    ensures forall k :: k in r ==> r[k] == if k in env then env[k] else FirstValue(lines, k).value
    decreases |lines|
  {
    if |lines| == 0 then env else ApplyLines(Assign(env, lines[0]), lines[1..])
  }

  /** Loads one file; a missing or unreadable file leaves the environment as it is. */
  function LoadEnv(env: Environment, file: Option<string>): (r: Environment)
    ensures file.None? ==> r == env
    ensures forall k :: k in env ==> k in r && r[k] == env[k]
    ensures file.Some? ==> forall k :: k in r && k !in env ==> FirstValue(SplitLines(file.value), k) == Some(r[k])
    ensures file.Some? ==> forall k :: k !in env && FirstValue(SplitLines(file.value), k).Some? ==> k in r
  {
    match file
    case None => env
    case Some(data) => ApplyLines(env, SplitLines(data))
  }

  function Lookup(m: map<string, string>, key: string): (r: Option<string>)
    ensures r.Some? <==> key in m
    ensures r.Some? ==> r.value == m[key]
  {
    if key in m then Some(m[key]) else None
  }

  /** The mode-specific file name: `.env.` and `NODE_ENV`, `development` when unset. */
  function ModeFile(env: Environment): string
  {
    ".env." + if "NODE_ENV" in env then env["NODE_ENV"] else "development"
  }

  /** Start-up: `.env` first, then the file named by `NODE_ENV` as it stands after that. */
  function Boot(processEnv: Environment, files: map<string, string>): (r: Environment)
    ensures forall k :: k in processEnv ==> k in r && r[k] == processEnv[k]
  {
    var afterDotEnv := LoadEnv(processEnv, Lookup(files, ".env"));
    LoadEnv(afterDotEnv, Lookup(files, ModeFile(afterDotEnv)))
  }

  /**
    Precedence of one name: the process environment wins over `.env`, which
    wins over the mode-specific file; within a file the first assignment wins.
   */
  lemma BootPrecedence(processEnv: Environment, files: map<string, string>, k: string)
    ensures var r := Boot(processEnv, files);
            var dotEnv := if ".env" in files then FirstValue(SplitLines(files[".env"]), k) else None;
            var e1 := LoadEnv(processEnv, Lookup(files, ".env"));
            var mode := if ModeFile(e1) in files then FirstValue(SplitLines(files[ModeFile(e1)]), k) else None;
            && (k in processEnv ==> r[k] == processEnv[k])
            && (k !in processEnv && dotEnv.Some? ==> k in r && r[k] == dotEnv.value)
            && (k !in processEnv && dotEnv.None? ==> (k in r <==> mode.Some?) && (mode.Some? ==> r[k] == mode.value))
  {
  }

  // ---------------------------------------------------------------------------
  // Flags and lists
  // ---------------------------------------------------------------------------

  /** A flag is on only when set to exactly `true` or `1`. */
  function Bool(v: Option<string>): (r: bool)
    ensures r ==> v.Some? && v.value in {"true", "1"}
    ensures v.Some? && v.value in {"true", "1"} ==> r
  {
    v == Some("true") || v == Some("1")
  }

  /** Unset, empty, other spellings and other truthy words all leave a flag off. */
  lemma BoolIsStrict()
    ensures !Bool(None) && !Bool(Some("")) && !Bool(Some("TRUE")) && !Bool(Some("yes")) && !Bool(Some(" 1"))
  {
  }

  /** Every piece trimmed, in place. */
  function TrimAll(pieces: seq<string>): (r: seq<string>)
    ensures |r| == |pieces| && forall i :: 0 <= i < |pieces| ==> r[i] == Trim(pieces[i])
    ensures forall i :: 0 <= i < |r| ==> Trimmed(r[i])
    decreases |pieces|
  {
    if |pieces| == 0 then [] else [Trim(pieces[0])] + TrimAll(pieces[1..])
  }

  /** Trimming a concatenation trims each part. */
  lemma {:induction false} TrimAllAppend(a: seq<string>, b: seq<string>)
    ensures TrimAll(a + b) == TrimAll(a) + TrimAll(b)
    decreases |a|
  {
    if |a| == 0 {
      assert a + b == b;
    } else {
      assert (a + b)[0] == a[0];
      assert (a + b)[1..] == a[1..] + b;
      TrimAllAppend(a[1..], b);
    }
  }

  /** The texts that are not empty, in their order. */
  function NonEmpty(texts: seq<string>): (r: seq<string>)
    ensures |r| <= |texts|
    ensures forall i :: 0 <= i < |r| ==> r[i] != "" && r[i] in texts
    decreases |texts|
  {
    if |texts| == 0 then []
    else if texts[0] != "" then [texts[0]] + NonEmpty(texts[1..])
    else NonEmpty(texts[1..])
  }

  /** A text survives the filter exactly when it is non-empty and present. */
  lemma {:induction false} NonEmptyMembers(texts: seq<string>, x: string)
    ensures x in NonEmpty(texts) <==> x != "" && x in texts
    decreases |texts|
  {
    if |texts| > 0 {
      NonEmptyMembers(texts[1..], x);
      assert texts == [texts[0]] + texts[1..];
    }
  }

  /** Filtering a concatenation filters each part in turn. */
  lemma {:induction false} NonEmptyAppend(a: seq<string>, b: seq<string>)
    ensures NonEmpty(a + b) == NonEmpty(a) + NonEmpty(b)
    decreases |a|
  {
    if |a| == 0 {
      assert a + b == b;
    } else {
      assert (a + b)[0] == a[0];
      assert (a + b)[1..] == a[1..] + b;
      NonEmptyAppend(a[1..], b);
    }
  }

  /** Filtering texts that are all trimmed leaves trimmed texts. */
  lemma NonEmptyOfTrimmed(texts: seq<string>)
    requires forall i :: 0 <= i < |texts| ==> Trimmed(texts[i])
    ensures forall i :: 0 <= i < |NonEmpty(texts)| ==> Trimmed(NonEmpty(texts)[i])
  {
    var r := NonEmpty(texts);
    forall i | 0 <= i < |r| ensures Trimmed(r[i]) {
      assert r[i] in texts;
    }
  }

  /** Texts that are all non-empty pass the filter unchanged. */
  lemma {:induction false} NonEmptyKeepsAll(texts: seq<string>)
    requires forall i :: 0 <= i < |texts| ==> texts[i] != ""
    ensures NonEmpty(texts) == texts
    decreases |texts|
  {
    if |texts| > 0 {
      NonEmptyKeepsAll(texts[1..]);
      assert [texts[0]] + texts[1..] == texts;
    }
  }

  /**
    Trims every piece and drops the ones left empty: the result holds exactly
    the non-empty trimmed pieces, in the order of the pieces.
   */
  function TrimNonEmpty(pieces: seq<string>): (r: seq<string>)
    ensures |r| <= |pieces|
    ensures forall i :: 0 <= i < |r| ==> r[i] != "" && Trimmed(r[i])
  {
    NonEmptyOfTrimmed(TrimAll(pieces));
    NonEmpty(TrimAll(pieces))
  }

  /** A text is kept exactly when it is non-empty and some piece trims to it. */
  lemma TrimNonEmptyMembers(pieces: seq<string>, x: string)
    ensures x in TrimNonEmpty(pieces) <==> x != "" && exists i :: 0 <= i < |pieces| && Trim(pieces[i]) == x
  {
    var ts := TrimAll(pieces);
    NonEmptyMembers(ts, x);
    if x in ts {
      var i :| 0 <= i < |ts| && ts[i] == x;
      assert Trim(pieces[i]) == x;
    }
    if exists i :: 0 <= i < |pieces| && Trim(pieces[i]) == x {
      var i :| 0 <= i < |pieces| && Trim(pieces[i]) == x;
      assert ts[i] == x;
    }
  }

  /** Filtering a concatenation filters each part in turn, so the order of the pieces is kept. */
  lemma TrimNonEmptyAppend(a: seq<string>, b: seq<string>)
    ensures TrimNonEmpty(a + b) == TrimNonEmpty(a) + TrimNonEmpty(b)
  {
    TrimAllAppend(a, b);
    NonEmptyAppend(TrimAll(a), TrimAll(b));
  }

  /**
    `ALLOWED_ORIGINS`: comma-separated, entries trimmed, empty entries
    dropped; unset gives none. An origin is listed exactly when some
    comma-separated entry trims to it.
   */
  function AllowedOrigins(v: Option<string>): (r: seq<string>)
    ensures v.None? || v == Some("") ==> r == []
    ensures forall i :: 0 <= i < |r| ==> r[i] != "" && Trimmed(r[i])
  {
    var s := if v.Some? then v.value else "";
    TrimNonEmpty(Split(s, ','))
  }

  /** A list of clean origins written comma-separated is read back as it was. */
  lemma AllowedOriginsRoundTrip(origins: seq<string>)
    requires forall i :: 0 <= i < |origins| ==> origins[i] != "" && Trimmed(origins[i]) && ',' !in origins[i]
    ensures AllowedOrigins(Some(Join(origins, ','))) == origins
  {
    AllowedOriginsOfEntries(origins);
    forall i | 0 <= i < |origins| ensures Trim(origins[i]) == origins[i] {
      TrimOfTrimmed(origins[i]);
    }
    TrimNonEmptyOfTrims(origins, origins);
  }

  /** The entries of a comma-joined list, whatever their padding, are read back trimmed, empty ones dropped. */
  lemma {:induction false} AllowedOriginsOfEntries(entries: seq<string>)
    requires forall i :: 0 <= i < |entries| ==> ',' !in entries[i]
    ensures AllowedOrigins(Some(Join(entries, ','))) == TrimNonEmpty(entries)
  {
    if |entries| > 0 {
      SplitJoin(entries, ',');
    }
  }

  /** One origin between blanks. */
  function Padded(o: string): string
  {
    " " + o + " "
  }

  /** Trimming removes the blanks `Padded` adds around a clean entry. */
  lemma {:induction false} TrimPadded(o: string)
    requires o != "" && Trimmed(o)
    ensures Trim(Padded(o)) == o
  {
    var p := Padded(o);
    assert p[1..] == o + " ";
    assert TrimStart(p) == TrimStart(p[1..]);
    assert TrimStart(o + " ") == o + " ";
    assert (o + " ")[..|o|] == o;
    assert TrimEnd(o + " ") == TrimEnd(o);
  }

  /**
    A list of clean origins written as `" a , b "`, with blanks around each
    entry and an empty entry at either end, is read back as the list.
   */
  lemma AllowedOriginsPadded(origins: seq<string>)
    requires forall i :: 0 <= i < |origins| ==> origins[i] != "" && Trimmed(origins[i]) && ',' !in origins[i]
    ensures AllowedOrigins(Some(Join([""] + PadAll(origins) + [" "], ','))) == origins
  {
    var mid := PadAll(origins);
    PaddedEntriesCommaFree(origins);
    AllowedOriginsOfEntries([""] + mid + [" "]);
    TrimNonEmptyAppend([""] + mid, [" "]);
    TrimNonEmptyAppend([""], mid);
    BlankEntriesDropped();
    TrimNonEmptyPadded(origins);
  }

  /** The entries of the padded list hold no comma. */
  lemma PaddedEntriesCommaFree(origins: seq<string>)
    requires forall i :: 0 <= i < |origins| ==> ',' !in origins[i]
    ensures forall i :: 0 <= i < |[""] + PadAll(origins) + [" "]| ==> ',' !in ([""] + PadAll(origins) + [" "])[i]
  {
    var entries := [""] + PadAll(origins) + [" "];
    forall i | 0 <= i < |entries| ensures ',' !in entries[i] {
      if 0 < i < |entries| - 1 {
        assert entries[i] == Padded(origins[i - 1]);
      }
    }
  }

  /** An empty entry and a blank one contribute nothing. */
  lemma BlankEntriesDropped()
    ensures TrimNonEmpty([""]) == [] && TrimNonEmpty([" "]) == []
  {
    assert Trim("") == "";
    assert Trim(" ") == "";
  }

  /** Every origin between blanks. */
  function PadAll(origins: seq<string>): (r: seq<string>)
    ensures |r| == |origins| && forall i :: 0 <= i < |origins| ==> r[i] == Padded(origins[i])
  {
    seq(|origins|, i requires 0 <= i < |origins| => Padded(origins[i]))
  }

  /** Pieces that each trim to a non-empty text give exactly those texts. */
  lemma TrimNonEmptyOfTrims(pieces: seq<string>, texts: seq<string>)
    requires |pieces| == |texts|
    requires forall i :: 0 <= i < |pieces| ==> Trim(pieces[i]) == texts[i] && texts[i] != ""
    ensures TrimNonEmpty(pieces) == texts
  {
    assert TrimAll(pieces) == texts;
    NonEmptyKeepsAll(texts);
  }

  lemma TrimNonEmptyPadded(origins: seq<string>)
    requires forall i :: 0 <= i < |origins| ==> origins[i] != "" && Trimmed(origins[i])
    ensures TrimNonEmpty(PadAll(origins)) == origins
  {
    var ps := PadAll(origins);
    forall i | 0 <= i < |ps| ensures Trim(ps[i]) == origins[i] && origins[i] != "" {
      TrimPadded(origins[i]);
    }
    TrimNonEmptyOfTrims(ps, origins);
  }
}

=== FILE: jsvalues.dfy ===
/**
  The JavaScript values request handlers receive (query strings, JSON bodies)
  and the coercions they apply to them: `Number(...)`, `Number.isFinite`,
  `String(...)` and truthiness. Numbers are integers; a decimal numeral too
  large for a double reads as an infinity. A coercion that would give a
  fraction or read an exponent form is not modelled.
 */
module JsValues {
  import opened Strings

  /** A JavaScript number: an integer value, an infinity of either sign, or NaN. */
  datatype Num = Finite(value: int) | Infinite(negative: bool) | NaN

  /**
    The least magnitude at which a decimal integer numeral reads as an
    infinity: 2^1024 - 2^970, halfway between the largest double
    (2^1024 - 2^971) and 2^1024, where rounding to nearest-even goes up.
   */
  const DoubleOverflow: int := 0xfffffffffffffc00_0000000000000000_0000000000000000_0000000000000000_0000000000000000_0000000000000000_0000000000000000_0000000000000000_0000000000000000_0000000000000000_0000000000000000_0000000000000000_0000000000000000_0000000000000000_0000000000000000_0000000000000000

  /** The number an exact integer value reads as: the infinity of its sign once it reaches `DoubleOverflow`. */
  function OfInteger(n: int): Num
  {
    if n >= DoubleOverflow then Infinite(false)
    else if n <= -DoubleOverflow then Infinite(true)
    else Finite(n)
  }

  /**
    A value read from a query string or a JSON body. `JNum(n)` is a JSON
    number written as the integer numeral `n`; `JObject` stands for a plain
    (non-array) object.
   */
  datatype JsValue =
    | JUndefined | JNull | JBool(b: bool) | JNum(n: int) | JStr(s: string)
    | JArray(elems: seq<JsValue>) | JObject

  /** `v == null`: null or undefined. */
  predicate LooseNull(v: JsValue)
  {
    v.JNull? || v.JUndefined?
  }

  predicate IsFinite(n: Num) { n.Finite? }

  predicate AllDigits(s: string)
  {
    forall i :: 0 <= i < |s| ==> IsDigit(s[i])
  }

  function DigitValue(c: char): (d: nat)
    requires IsDigit(c)
    ensures d < 10
  {
    (c as int) - ('0' as int)
  }

  function DigitChar(d: nat): (c: char)
    requires d < 10
    ensures IsDigit(c) && DigitValue(c) == d
  {
    (('0' as int) + d) as char
  }

  /** The value of a decimal numeral, most significant digit first. */
  function ParseDigits(s: string): (n: nat)
    requires AllDigits(s)
    decreases |s|
  {
    if |s| == 0 then 0 else ParseDigits(s[..|s| - 1]) * 10 + DigitValue(s[|s| - 1])
  }

  /** The decimal numeral of `n`, without leading zeros. */
  function FormatNat(n: nat): (s: string)
    ensures |s| >= 1 && AllDigits(s)
    ensures |s| > 1 ==> s[0] != '0'
  {
    if n < 10 then [DigitChar(n)] else FormatNat(n / 10) + [DigitChar(n % 10)]
  }

  /** `String(n)` for an integer `n`. */
  function FormatInt(n: int): (s: string)
    ensures |s| >= 1 && (IsDigit(s[0]) || s[0] == '-')
  {
    if n < 0 then "-" + FormatNat(-n) else FormatNat(n)
  }

  lemma {:induction false} ParseFormatNat(n: nat)
    ensures ParseDigits(FormatNat(n)) == n
  {
    if n >= 10 {
      var s := FormatNat(n);
      assert s[..|s| - 1] == FormatNat(n / 10);
      ParseFormatNat(n / 10);
    }
  }

  /**
    `Number(s)` for a string: the trimmed text as an optionally signed
    decimal integer, or as an unsigned binary, octal or hexadecimal numeral
    after `0b`, `0o` or `0x` (either case), an infinity once its magnitude
    reaches `DoubleOverflow`; `Infinity` with an optional sign; the empty
    text as 0; anything else NaN.
   */
  function NumberOfString(s: string): (r: Num)
    ensures Trim(s) == "" ==> r == Finite(0)
    ensures AllDigits(Trim(s)) && ParseDigits(Trim(s)) < DoubleOverflow ==> r == Finite(ParseDigits(Trim(s)))
    ensures AllDigits(Trim(s)) && ParseDigits(Trim(s)) >= DoubleOverflow ==> r == Infinite(false)
    ensures Trim(s) == "Infinity" || Trim(s) == "+Infinity" ==> r == Infinite(false)
    ensures Trim(s) == "-Infinity" ==> r == Infinite(true)
    ensures r.Finite? ==> -DoubleOverflow < r.value < DoubleOverflow
    ensures r.Finite? && Trim(s) != "" ==>
      var t := Trim(s);
      || AllDigits(t) || (|t| > 1 && (t[0] == '-' || t[0] == '+') && AllDigits(t[1..]))
      || PrefixedNumeral(t)
  {
    ReadTrimmed(Trim(s))
  }

  /** The number an already trimmed text spells. */
  function ReadTrimmed(t: string): Num
  {
    if t == "" then Finite(0)
    else if AllDigits(t) then OfInteger(ParseDigits(t))
    else if |t| > 1 && t[0] == '-' && AllDigits(t[1..]) then OfInteger(-(ParseDigits(t[1..]) as int))
    else if |t| > 1 && t[0] == '+' && AllDigits(t[1..]) then OfInteger(ParseDigits(t[1..]))
    else if PrefixedNumeral(t) then OfInteger(ParseRadix(t[2..], PrefixRadix(t)))
    else if t == "Infinity" || t == "+Infinity" then Infinite(false)
    else if t == "-Infinity" then Infinite(true)
    else NaN
  }

  /** The radix a `0b`, `0o` or `0x` prefix names, in either case; 0 when the text has none. */
  function PrefixRadix(t: string): nat
  {
    if |t| < 2 || t[0] != '0' then 0
    else if t[1] == 'b' || t[1] == 'B' then 2
    else if t[1] == 'o' || t[1] == 'O' then 8
    else if t[1] == 'x' || t[1] == 'X' then 16
    else 0
  }

  /** The value of a digit or letter as a digit (`a` and `A` are 10); 36 for any other character. */
  function RadixDigit(c: char): (d: nat)
    ensures d <= 36
  {
    if '0' <= c <= '9' then (c as int) - ('0' as int)
    else if 'a' <= c <= 'z' then (c as int) - ('a' as int) + 10
    else if 'A' <= c <= 'Z' then (c as int) - ('A' as int) + 10
    else 36
  }

  predicate AllRadixDigits(s: string, radix: nat)
  {
    forall i :: 0 <= i < |s| ==> RadixDigit(s[i]) < radix
  }

  /** A prefix naming a radix, then at least one digit of that radix. */
  predicate PrefixedNumeral(t: string)
  {
    PrefixRadix(t) != 0 && |t| > 2 && AllRadixDigits(t[2..], PrefixRadix(t))
  }

  /** The value of a numeral in `radix`, most significant digit first. */
  function ParseRadix(s: string, radix: nat): nat
    requires AllRadixDigits(s, radix)
    decreases |s|
  {
    if |s| == 0 then 0 else ParseRadix(s[..|s| - 1], radix) * radix + RadixDigit(s[|s| - 1])
  }

  /** A prefixed numeral reads as its value in the radix the prefix names; a sign in front makes it NaN. */
  lemma PrefixedNumerals(s: string)
    ensures PrefixedNumeral(Trim(s)) ==>
      NumberOfString(s) == OfInteger(ParseRadix(Trim(s)[2..], PrefixRadix(Trim(s))))
    ensures |Trim(s)| > 1 && (Trim(s)[0] == '-' || Trim(s)[0] == '+') && PrefixedNumeral(Trim(s)[1..]) ==>
      NumberOfString(s) == NaN
  {
    ReadPrefixed(Trim(s));
  }

  lemma ReadPrefixed(t: string)
    ensures PrefixedNumeral(t) ==> ReadTrimmed(t) == OfInteger(ParseRadix(t[2..], PrefixRadix(t)))
    ensures |t| > 1 && (t[0] == '-' || t[0] == '+') && PrefixedNumeral(t[1..]) ==> ReadTrimmed(t) == NaN
  {
    if PrefixedNumeral(t) {
      assert !IsDigit(t[1]);
    }
    if |t| > 1 && (t[0] == '-' || t[0] == '+') && PrefixedNumeral(t[1..]) {
      assert !IsDigit(t[0]);
      assert !IsDigit(t[1..][1]);
      assert PrefixRadix(t) == 0;
    }
  }

  /** `Number("0b101")` is 5, `Number("0O17")` is 15 and `Number("0x1f")` is 31. */
  lemma PrefixedExamples()
    ensures NumberOfString("0b101") == Finite(5)
    ensures NumberOfString("0O17") == Finite(15)
    ensures NumberOfString("0x1f") == Finite(31)
  {
    BinaryExample();
    OctalExample();
    HexExample();
  }

  lemma BinaryExample()
    ensures NumberOfString("0b101") == Finite(5)
  {
    var t := "0b101";
    assert AllRadixDigits(t[2..], 2) && ParseRadix(t[2..], 2) == 5 by {
      assert t[2..] == "101" && "101"[..2] == "10" && "10"[..1] == "1" && "1"[..0] == "";
    }
    PrefixedExample(t, 2, 5);
  }

  lemma OctalExample()
    ensures NumberOfString("0O17") == Finite(15)
  {
    var t := "0O17";
    assert AllRadixDigits(t[2..], 8) && ParseRadix(t[2..], 8) == 15 by {
      assert t[2..] == "17" && "17"[..1] == "1" && "1"[..0] == "";
    }
    PrefixedExample(t, 8, 15);
  }

  lemma HexExample()
    ensures NumberOfString("0x1f") == Finite(31)
  {
    var t := "0x1f";
    assert AllRadixDigits(t[2..], 16) && ParseRadix(t[2..], 16) == 31 by {
      assert t[2..] == "1f" && "1f"[..1] == "1" && "1"[..0] == "";
    }
    PrefixedExample(t, 16, 31);
  }

  lemma PrefixedExample(t: string, radix: nat, v: nat)
    requires |t| > 2 && PrefixRadix(t) == radix != 0 && AllRadixDigits(t[2..], radix)
    requires ParseRadix(t[2..], radix) == v < DoubleOverflow
    requires !IsSpace(t[0]) && !IsSpace(t[|t| - 1])
    ensures NumberOfString(t) == Finite(v)
  {
    assert Trimmed(t);
    TrimOfTrimmed(t);
    ReadPrefixed(t);
  }

  /** Ten to the power `k`. */
  function Pow10(k: nat): (r: nat)
    ensures r >= 1
  {
    if k == 0 then 1 else 10 * Pow10(k - 1)
  }

  /** A numeral of `k + 1` digits without a leading zero is at least 10^k. */
  lemma {:induction false} ParseDigitsAtLeast(s: string)
    requires |s| >= 1 && AllDigits(s) && s[0] != '0'
    ensures ParseDigits(s) >= Pow10(|s| - 1)
  {
    var init := s[..|s| - 1];
    if |init| == 0 {
      assert DigitValue(s[0]) >= 1;
    } else {
      assert init[0] == s[0];
      ParseDigitsAtLeast(init);
      assert ParseDigits(s) >= ParseDigits(init) * 10;
    }
  }

  /** 10^(a + b) = 10^a * 10^b. */
  lemma {:induction false} Pow10Add(a: nat, b: nat)
    ensures Pow10(a + b) == Pow10(a) * Pow10(b)
  {
    if a > 0 {
      Pow10Add(a - 1, b);
    }
  }

  /** 10^308 is below the overflow bound and 10^309 above it. */
  lemma OverflowBetweenPowers()
    ensures Pow10(308) < DoubleOverflow <= Pow10(309)
  {
    // Squaring up to 10^256, then adding exponents up to 309.
    assert Pow10(1) == 10;
    Pow10Add(1, 1);
    assert Pow10(2) == 100;
    Pow10Add(2, 2);
    assert Pow10(4) == 10000;
    Pow10Add(4, 4);
    assert Pow10(8) == 100000000;
    Pow10Add(8, 8);
    assert Pow10(16) == 10000000000000000;
    Pow10Add(16, 16);
    assert Pow10(32) == 100000000000000000000000000000000;
    Pow10Add(32, 32);
    assert Pow10(64) == 10000000000000000000000000000000000000000000000000000000000000000;
    Pow10Add(64, 64);
    assert Pow10(128) == 100000000000000000000000000000000000000000000000000000000000000000000000000000000000000000000000000000000000000000000000000000000;
    Pow10Add(128, 128);
    assert Pow10(256) == 10000000000000000000000000000000000000000000000000000000000000000000000000000000000000000000000000000000000000000000000000000000000000000000000000000000000000000000000000000000000000000000000000000000000000000000000000000000000000000000000000000000000000000;
    Pow10Add(256, 32);
    Pow10Add(288, 16);
    Pow10Add(304, 4);
    Pow10Add(308, 1);
  }

  /**
    A run of 310 or more digits without a leading zero is beyond every
    double, so `Number` reads it as an infinity and `Number.isFinite` fails.
   */
  lemma LongNumeralIsInfinite(s: string)
    requires |s| >= 310 && AllDigits(s) && s[0] != '0'
    ensures NumberOfString(s) == Infinite(false)
  {
    assert ParseDigits(s) >= DoubleOverflow by {
      ParseDigitsAtLeast(s);
      Pow10Monotone(309, |s| - 1);
      OverflowBetweenPowers();
    }
    assert Trimmed(s);
    TrimOfTrimmed(s);
  }

  /** Powers of ten grow with the exponent. */
  lemma {:induction false} Pow10Monotone(j: nat, k: nat)
    requires j <= k
    ensures Pow10(j) <= Pow10(k)
  {
    if j < k {
      Pow10Monotone(j, k - 1);
    }
  }

  /**
    Reading back the numeral of an integer gives the integer, or the
    infinity of its sign when it is beyond every double.
   */
  lemma NumberOfFormat(n: int)
    ensures -DoubleOverflow < n < DoubleOverflow ==> NumberOfString(FormatInt(n)) == Finite(n)
    ensures n >= DoubleOverflow ==> NumberOfString(FormatInt(n)) == Infinite(false)
    ensures n <= -DoubleOverflow ==> NumberOfString(FormatInt(n)) == Infinite(true)
  {
    FormatIntTrimmed(n);
    ReadFormatInt(n);
  }

  /** A numeral has no surrounding blanks. */
  lemma FormatIntTrimmed(n: int)
    ensures Trim(FormatInt(n)) == FormatInt(n)
  {
    assert Trimmed(FormatInt(n));
    TrimOfTrimmed(FormatInt(n));
  }

  /** The numeral of an integer spells the number that integer reads as. */
  lemma ReadFormatInt(n: int)
    ensures ReadTrimmed(FormatInt(n)) == OfInteger(n)
  {
    if n < 0 {
      ReadNegativeNumeral(n);
    } else {
      ReadNumeral(n);
    }
  }

  /** `ReadFormatInt` for a natural number. */
  lemma ReadNumeral(n: nat)
    ensures ReadTrimmed(FormatInt(n)) == OfInteger(n)
  {
    assert FormatInt(n) == FormatNat(n);
    ParseFormatNat(n);
  }

  /** `ReadFormatInt` for a negative number, read through the minus branch. */
  lemma ReadNegativeNumeral(n: int)
    requires n < 0
    ensures ReadTrimmed(FormatInt(n)) == OfInteger(n)
  {
    var s := FormatInt(n);
    assert |s| > 1 && s[0] == '-' && AllDigits(s[1..]) && ParseDigits(s[1..]) == -n by {
      assert s == "-" + FormatNat(-n);
      assert s[1..] == FormatNat(-n);
      ParseFormatNat(-n);
    }
    ReadMinus(s);
  }

  /** A minus sign before a digit run is read through the minus branch. */
  lemma ReadMinus(t: string)
    requires |t| > 1 && t[0] == '-' && AllDigits(t[1..])
    ensures ReadTrimmed(t) == OfInteger(-(ParseDigits(t[1..]) as int))
  {
    assert !IsDigit(t[0]);
  }

  /**
    `Number(v)`. A JSON number reads as its numeral does; an array is first
    turned into its `String(...)` text, so `[]` is 0 and `[7]` is 7; a plain
    object is NaN.
   */
  function NumberOf(v: JsValue): (r: Num)
    ensures v.JNum? && v.n >= DoubleOverflow ==> r == Infinite(false)
    ensures v.JNum? && v.n <= -DoubleOverflow ==> r == Infinite(true)
    ensures v.JNum? && -DoubleOverflow < v.n < DoubleOverflow ==> r == Finite(v.n)
    ensures v.JUndefined? || v.JObject? ==> r == NaN
    ensures v.JNull? || v == JArray([]) ==> r == Finite(0)
    ensures v.JStr? ==> r == NumberOfString(v.s)
    ensures v.JArray? ==> r == NumberOfString(StringOf(v))
  {
    match v
    case JUndefined => NaN
    case JNull => Finite(0)
    case JBool(b) => Finite(if b then 1 else 0)
    case JNum(n) => OfInteger(n)
    case JStr(s) => NumberOfString(s)
    case JArray(_) => NumberOfString(StringOf(v))
    case JObject => NaN
  }

  /**
    `String(v)`: an array is its elements' texts joined by commas, with null
    and undefined elements as empty text; a plain object shows as
    `[object Object]`.
   */
  function StringOf(v: JsValue): (r: string)
    ensures v.JStr? ==> r == v.s
    ensures v.JArray? ==> r == Join(ElemStrings(v.elems), ',')
    decreases v, 1
  {
    match v
    case JUndefined => "undefined"
    case JNull => "null"
    case JBool(b) => if b then "true" else "false"
    case JNum(n) => FormatInt(n)
    case JStr(s) => s
    case JArray(es) => Join(ElemStrings(es), ',')
    case JObject => "[object Object]"
  }

  /** The text `Array.prototype.join` uses for each element. */
  function ElemStrings(es: seq<JsValue>): (r: seq<string>)
    ensures |r| == |es|
    ensures forall i :: 0 <= i < |es| && LooseNull(es[i]) ==> r[i] == ""
    ensures forall i :: 0 <= i < |es| && !LooseNull(es[i]) ==> r[i] == StringOf(es[i])
    decreases es, 0
  {
    if |es| == 0 then []
    else
      var rest := ElemStrings(es[1..]);
      assert forall i :: 1 <= i < |es| ==> es[i] == es[1..][i - 1];
      [if LooseNull(es[0]) then "" else StringOf(es[0])] + rest
  }

  /**
    A one-element array coerces like its element: `String([x])` is
    `String(x)` and `Number([x])` is `Number(String(x))`, so `[7]` is 7 and
    `["confirmed"]` spells `confirmed`; `[null]` is empty text, hence 0.
   */
  lemma SingletonArray(v: JsValue)
    ensures !LooseNull(v) ==> StringOf(JArray([v])) == StringOf(v)
    ensures LooseNull(v) ==> StringOf(JArray([v])) == "" && NumberOf(JArray([v])) == Finite(0)
    ensures v.JNum? ==> NumberOf(JArray([v])) == NumberOf(v)
  {
    var es := ElemStrings([v]);
    assert Join(es, ',') == es[0];
    if v.JNum? {
      NumberOfFormat(v.n);
    }
    if LooseNull(v) {
      assert Trim("") == "";
    }
  }

  /** JavaScript truthiness of a value. */
  predicate Truthy(v: JsValue)
  {
    match v
    case JUndefined => false
    case JNull => false
    case JBool(b) => b
    case JNum(n) => n != 0
    case JStr(s) => s != ""
    case JArray(_) => true
    case JObject => true
  }

  /** A query parameter: absent, or a string. */
  function QueryValue(q: map<string, string>, key: string): (v: JsValue)
    ensures v.JUndefined? <==> key !in q
    ensures v.JStr? ==> key in q && v.s == q[key]
  {
    if key in q then JStr(q[key]) else JUndefined
  }

  /** A body field: a missing field reads as `undefined`. */
  function Field(body: map<string, JsValue>, key: string): (v: JsValue)
    ensures key !in body ==> v == JUndefined
    ensures key in body ==> v == body[key]
  {
    if key in body then body[key] else JUndefined
  }
}

=== FILE: mailer.dfy ===
/**
  The mail templates: the notice to the salon about a new booking and the
  status notice to the customer, each as an HTML body and a plain text.
  The fixed page frame around the HTML body is represented by its title and
  its body blocks; each block is built character for character, and
  `HtmlBody` lays them out on indented lines as the template does.
 */
module Mailer {
  import opened Base
  import opened Strings
  import opened Schema

  /** A rendered template: the page title, the blocks of the HTML body, and the plain text. */
  datatype Mail = Mail(title: string, blocks: seq<string>, text: string)

  /** The common start of the row and link-block markup. */
  const DivMargin: string := "<div style=\"margin"
  const KvOpen: string := DivMargin + ":4px 0\"><span style=\"color:#aaa\">"
  const KvMid: string := ":</span> <strong style=\"color:#fff\">"
  const KvClose: string := "</strong></div>"

  /** One labelled row of the HTML body; caption and value are inserted as given, without escaping. */
  function Kv(caption: string, value: string): (r: string)
    ensures |r| == |KvOpen| + |caption| + |KvMid| + |value| + |KvClose|
    ensures r[..|KvOpen|] == KvOpen
    ensures r[|KvOpen|..][..|caption|] == caption
    ensures r[|KvOpen| + |caption| + |KvMid|..][..|value|] == value
  {
    var r := KvOpen + caption + KvMid + value + KvClose;
    assert r[|KvOpen|..] == caption + KvMid + value + KvClose;
    assert r[|KvOpen| + |caption| + |KvMid|..] == value + KvClose;
    r
  }

  /** For captions of equal length, the row determines its caption and its value. */
  lemma KvInjective(l1: string, v1: string, l2: string, v2: string)
    requires |l1| == |l2| && Kv(l1, v1) == Kv(l2, v2)
    ensures l1 == l2 && v1 == v2
  {
  }

  /** JavaScript truthiness of an optional string parameter. */
  predicate Given(p: Option<string>)
  {
    p.Some? && p.value != ""
  }

  /** The blocks of a template body, each on its own indented line. */
  function RenderBlocks(blocks: seq<string>): string
    decreases |blocks|
  {
    if |blocks| == 0 then "\n    " else "\n      " + blocks[0] + RenderBlocks(blocks[1..])
  }

  /** The HTML body handed to the page frame. */
  function HtmlBody(m: Mail): string
  {
    RenderBlocks(m.blocks)
  }

  // ---------------------------------------------------------------------------
  // New booking, to the salon
  // ---------------------------------------------------------------------------

  datatype NewBookingParams = NewBookingParams(
    salonName: string, serviceTitle: string, priceEUR: string, date: string, time: string,
    stylist: Option<string>, note: Option<string>, manageUrl: Option<string>)

  const ManageLinkStyle: string :=
    "background:#FFD700;color:#000000;text-decoration:none;padding:10px 14px;border-radius:8px;display:inline-block;font-weight:600"

  function ManageLink(url: string): string
  {
    "<a href=\"" + url + "\" style=\"" + ManageLinkStyle + "\">Heute-Board öffnen</a>"
  }

  const Intro: string := "<p>Es liegt eine " + "<strong>neue Buchungsanfrage</strong>" + " vor.</p>"
  const LinkOpen: string := DivMargin + "-top:12px\">\n        "
  const LinkClose: string := "\n      </div>"

  function LinkBlock(p: NewBookingParams): string
  {
    LinkOpen + (if Given(p.manageUrl) then ManageLink(p.manageUrl.value) else "") + LinkClose
  }

  /** The body blocks of the salon notice: the stylist and note rows are empty unless given. */
  function NewBookingBlocks(p: NewBookingParams): seq<string>
  {
    [ Intro,
      Kv("Leistung", p.serviceTitle + " (" + p.priceEUR + ")"),
      Kv("Datum", p.date),
      Kv("Zeit", p.time),
      if Given(p.stylist) then Kv("Stylist", p.stylist.value) else "",
      if Given(p.note) then Kv("Notiz", p.note.value) else "",
      LinkBlock(p) ]
  }

  /** The lines of the salon notice's text: header, service, date, time, then each optional line that is given. */
  function NewBookingLines(p: NewBookingParams): (r: seq<string>)
  {
    [ "Neue Buchung · " + p.salonName,
      "Leistung: " + p.serviceTitle + " (" + p.priceEUR + ")",
      "Datum: " + p.date,
      "Zeit: " + p.time ]
    + (if Given(p.stylist) then ["Stylist: " + p.stylist.value] else [])
    + (if Given(p.note) then ["Notiz: " + p.note.value] else [])
    + (if Given(p.manageUrl) then ["Verwalten: " + p.manageUrl.value] else [])
  }

  /** The concatenation of `lines`, each ended by a line feed. */
  function Terminated(lines: seq<string>): string
    decreases |lines|
  {
    if |lines| == 0 then "" else lines[0] + "\n" + Terminated(lines[1..])
  }

  /** Splitting line-feed-terminated lines gives them back, followed by the empty rest. */
  lemma {:induction false} SplitTerminated(lines: seq<string>, tail: string)
    requires forall i :: 0 <= i < |lines| ==> '\n' !in lines[i]
    ensures Split(Terminated(lines) + tail, '\n') == lines + Split(tail, '\n')
    decreases |lines|
  {
    if |lines| > 0 {
      SplitTerminated(lines[1..], tail);
      assert Terminated(lines) + tail == lines[0] + ['\n'] + (Terminated(lines[1..]) + tail);
      SplitAfterPiece(lines[0], '\n', Terminated(lines[1..]) + tail);
      assert [lines[0]] + lines[1..] == lines;
      assert [lines[0]] + (lines[1..] + Split(tail, '\n')) == lines + Split(tail, '\n');
    } else {
      assert Terminated(lines) + tail == tail;
    }
  }

  /** No parameter of the salon notice contains a line break. */
  predicate SingleLineParams(p: NewBookingParams)
  {
    && '\n' !in p.salonName && '\n' !in p.serviceTitle && '\n' !in p.priceEUR
    && '\n' !in p.date && '\n' !in p.time
    && (p.stylist.Some? ==> '\n' !in p.stylist.value)
    && (p.note.Some? ==> '\n' !in p.note.value)
    && (p.manageUrl.Some? ==> '\n' !in p.manageUrl.value)
  }

  /**
    The salon notice's text is its lines, each ended by a line feed: always
    service, date and time; the stylist, note and manage lines exactly when
    given, in that order.
   */
  lemma NewBookingTextLines(p: NewBookingParams)
    ensures SingleLineParams(p) ==>
      var ls := Split(Terminated(NewBookingLines(p)), '\n');
      && ls == NewBookingLines(p) + [""]
      && ls[0] == "Neue Buchung · " + p.salonName
      && |ls| == 5 + (if Given(p.stylist) then 1 else 0) + (if Given(p.note) then 1 else 0)
                   + (if Given(p.manageUrl) then 1 else 0)
    ensures var ls := NewBookingLines(p);
            && ls[0] == "Neue Buchung · " + p.salonName
            && ls[1] == "Leistung: " + p.serviceTitle + " (" + p.priceEUR + ")"
            && ls[2] == "Datum: " + p.date && ls[3] == "Zeit: " + p.time
            && |ls| == 4 + (if Given(p.stylist) then 1 else 0) + (if Given(p.note) then 1 else 0)
                         + (if Given(p.manageUrl) then 1 else 0)
            && (Given(p.stylist) ==> ls[4] == "Stylist: " + p.stylist.value)
            && (Given(p.manageUrl) ==> ls[|ls| - 1] == "Verwalten: " + p.manageUrl.value)
  {
    if SingleLineParams(p) {
      var ls := NewBookingLines(p);
      NewBookingLinesSingle(p);
      SplitTerminated(ls, "");
      assert Terminated(ls) + "" == Terminated(ls);
    }
  }

  /** The fixed parts of the text lines hold no line feed. */
  lemma LineLabelsSingle()
    ensures && '\n' !in "Neue Buchung · " && '\n' !in "Leistung: " && '\n' !in " (" && '\n' !in ")"
            && '\n' !in "Datum: " && '\n' !in "Zeit: " && '\n' !in "Stylist: " && '\n' !in "Notiz: "
            && '\n' !in "Verwalten: "
  {
  }

  /** Without line breaks in the parameters, no line of the salon notice's text holds one. */
  lemma NewBookingLinesSingle(p: NewBookingParams)
    requires SingleLineParams(p)
    ensures forall i :: 0 <= i < |NewBookingLines(p)| ==> '\n' !in NewBookingLines(p)[i]
  {
    LineLabelsSingle();
  }

  /** Rows with captions starting with different letters differ. */
  lemma KvCaptionsDiffer(c1: string, v1: string, c2: string, v2: string)
    requires |c1| > 0 && |c2| > 0 && c1[0] != c2[0]
    ensures Kv(c1, v1) != Kv(c2, v2)
  {
    assert Kv(c1, v1)[|KvOpen|] == c1[0];
    assert Kv(c2, v2)[|KvOpen|] == c2[0];
  }

  /** No row is the intro paragraph or the link block. */
  lemma KvIsNoOtherBlock(c: string, v: string, p: NewBookingParams)
    ensures Kv(c, v) != Intro && Kv(c, v) != LinkBlock(p) && Kv(c, v) != ""
  {
    assert Kv(c, v)[1] == KvOpen[1];
    assert LinkBlock(p)[..|LinkOpen|] == LinkOpen;
    assert KvOpen[18] == ':';
    assert LinkOpen[18] == '-';
    assert Kv(c, v)[18] == KvOpen[18] != LinkOpen[18] == LinkBlock(p)[18];
  }

  /** The HTML rows for stylist and note appear exactly when given, with the given text. */
  lemma NewBookingHtmlOptionalRows(p: NewBookingParams, x: string)
    ensures Kv("Stylist", x) in NewBookingBlocks(p) <==> Given(p.stylist) && x == p.stylist.value
    ensures Kv("Notiz", x) in NewBookingBlocks(p) <==> Given(p.note) && x == p.note.value
  {
    NewBookingStylistRow(p, x);
    NewBookingNoteRow(p, x);
  }

  /** The stylist row is no other block of the body, so it is there exactly when given. */
  lemma NewBookingStylistRow(p: NewBookingParams, x: string)
    ensures Kv("Stylist", x) in NewBookingBlocks(p) <==> Given(p.stylist) && x == p.stylist.value
  {
    var b := NewBookingBlocks(p);
    KvIsNoOtherBlock("Stylist", x, p);
    KvCaptionsDiffer("Stylist", x, "Leistung", p.serviceTitle + " (" + p.priceEUR + ")");
    KvCaptionsDiffer("Stylist", x, "Datum", p.date);
    KvCaptionsDiffer("Stylist", x, "Zeit", p.time);
    if Given(p.note) { KvCaptionsDiffer("Stylist", x, "Notiz", p.note.value); }
    if Given(p.stylist) && Kv("Stylist", x) == b[4] { KvInjective("Stylist", x, "Stylist", p.stylist.value); }
  }

  /** The note row is no other block of the body, so it is there exactly when given. */
  lemma NewBookingNoteRow(p: NewBookingParams, x: string)
    ensures Kv("Notiz", x) in NewBookingBlocks(p) <==> Given(p.note) && x == p.note.value
  {
    var b := NewBookingBlocks(p);
    KvIsNoOtherBlock("Notiz", x, p);
    KvCaptionsDiffer("Notiz", x, "Leistung", p.serviceTitle + " (" + p.priceEUR + ")");
    KvCaptionsDiffer("Notiz", x, "Datum", p.date);
    KvCaptionsDiffer("Notiz", x, "Zeit", p.time);
    if Given(p.stylist) { KvCaptionsDiffer("Notiz", x, "Stylist", p.stylist.value); }
    if Given(p.note) && Kv("Notiz", x) == b[5] { KvInjective("Notiz", x, "Notiz", p.note.value); }
  }

  /**
    The link block carries the manage link, with the URL inserted verbatim,
    exactly when a manage URL is given; otherwise it is the empty frame.
   */
  lemma NewBookingManageLink(p: NewBookingParams)
    ensures Given(p.manageUrl) ==>
      var url := p.manageUrl.value;
      var block := NewBookingBlocks(p)[6];
      && |block| == |LinkOpen| + |ManageLink(url)| + |LinkClose|
      && |block| > |LinkOpen| + |"<a href=\""| + |url|
      && block[|LinkOpen| + |"<a href=\""|..][..|url|] == url
    ensures !Given(p.manageUrl) ==> NewBookingBlocks(p)[6] == LinkOpen + LinkClose
  {
    if Given(p.manageUrl) {
      var url := p.manageUrl.value;
      var k := |LinkOpen| + |"<a href=\""|;
      assert LinkBlock(p)[k..] == url + "\" style=\"" + ManageLinkStyle + "\">Heute-Board öffnen</a>" + LinkClose;
    } else {
      assert LinkBlock(p) == LinkOpen + "" + LinkClose;
    }
  }

  /** The service, date and time rows are always in the body. */
  lemma NewBookingRequiredRows(p: NewBookingParams)
    ensures && Kv("Leistung", p.serviceTitle + " (" + p.priceEUR + ")") in NewBookingBlocks(p)
            && Kv("Datum", p.date) in NewBookingBlocks(p) && Kv("Zeit", p.time) in NewBookingBlocks(p)
  {
    var b := NewBookingBlocks(p);
    assert b[1] in b && b[2] in b && b[3] in b;
  }

  /** `NewBookingHtmlOptionalRows` for every candidate text at once. */
  lemma NewBookingOptionalRowsAll(p: NewBookingParams)
    ensures forall x :: Kv("Stylist", x) in NewBookingBlocks(p) <==> Given(p.stylist) && x == p.stylist.value
    ensures forall x :: Kv("Notiz", x) in NewBookingBlocks(p) <==> Given(p.note) && x == p.note.value
  {
    forall x {
      NewBookingHtmlOptionalRows(p, x);
    }
  }

  /**
    The notice to the salon about a new booking request. The body always has
    the service, date and time rows and has a stylist or note row exactly
    when that parameter is given; the manage link carries the URL exactly
    when one is given. Without line breaks in the parameters, the text is the
    title line, then the service, date and time lines and each optional line
    that is given, each ended by a line feed.
   */
  function NewBookingToSalon(p: NewBookingParams): (m: Mail)
    ensures m.title == "Neue Buchung · " + p.salonName
    ensures && Kv("Leistung", p.serviceTitle + " (" + p.priceEUR + ")") in m.blocks
            && Kv("Datum", p.date) in m.blocks && Kv("Zeit", p.time) in m.blocks
    ensures forall x :: Kv("Stylist", x) in m.blocks <==> Given(p.stylist) && x == p.stylist.value
    ensures forall x :: Kv("Notiz", x) in m.blocks <==> Given(p.note) && x == p.note.value
    ensures |m.blocks| == 7
    ensures Given(p.manageUrl) ==>
      var url := p.manageUrl.value;
      && |m.blocks[6]| > |LinkOpen| + |"<a href=\""| + |url|
      && m.blocks[6][|LinkOpen| + |"<a href=\""|..][..|url|] == url
    ensures !Given(p.manageUrl) ==> m.blocks[6] == LinkOpen + LinkClose
    ensures SingleLineParams(p) ==>
      var ls := Split(m.text, '\n');
      && ls == NewBookingLines(p) + [""]
      && ls[0] == m.title
      && |ls| == 5 + (if Given(p.stylist) then 1 else 0) + (if Given(p.note) then 1 else 0)
                   + (if Given(p.manageUrl) then 1 else 0)
  {
    NewBookingRequiredRows(p);
    NewBookingOptionalRowsAll(p);
    NewBookingManageLink(p);
    NewBookingTextLines(p);
    Mail("Neue Buchung · " + p.salonName, NewBookingBlocks(p), Terminated(NewBookingLines(p)))
  }

  // ---------------------------------------------------------------------------
  // Status notice, to the customer
  // ---------------------------------------------------------------------------

  /** The statuses a customer is notified about. */
  type CustomerStatus = s: Status | s != Requested witness Confirmed

  function Title(s: CustomerStatus): string
  {
    match s
    case Confirmed => "Termin bestätigt"
    case Declined => "Termin abgelehnt"
    case Cancelled => "Termin storniert"
  }

  /** The three notified statuses have three different titles. */
  lemma TitlesDistinct(s: CustomerStatus, t: CustomerStatus)
    ensures s != t ==> Title(s) != Title(t)
  {
    if s != t { assert Title(s)[7] != Title(t)[7]; }
  }

  /** The lines of the customer text: title and salon, service, date, time. */
  function StatusLines(status: CustomerStatus, serviceTitle: string, date: string, time: string,
                       salonName: string): seq<string>
  {
    [Title(status) + " · " + salonName, "Leistung: " + serviceTitle, "Datum: " + date, "Zeit: " + time]
  }

  /** Without line breaks in the parameters, the customer text splits back into exactly its four lines. */
  lemma StatusTextLines(status: CustomerStatus, serviceTitle: string, date: string, time: string, salonName: string)
    ensures '\n' !in serviceTitle && '\n' !in date && '\n' !in time && '\n' !in salonName ==>
            var ls := StatusLines(status, serviceTitle, date, time, salonName);
            Split(Join(ls, '\n'), '\n') == ls
  {
    if '\n' !in serviceTitle && '\n' !in date && '\n' !in time && '\n' !in salonName {
      var ls := StatusLines(status, serviceTitle, date, time, salonName);
      forall i | 0 <= i < 4 ensures '\n' !in ls[i] {
        assert '\n' !in Title(status) && '\n' !in " · ";
        assert '\n' !in "Leistung: " && '\n' !in "Datum: " && '\n' !in "Zeit: ";
      }
      SplitJoin(ls, '\n');
    }
  }

  /** The status row names the notified status and no other. */
  lemma StatusRowNamesOnlyItsStatus(status: CustomerStatus, other: CustomerStatus, blocks: seq<string>)
    requires |blocks| == 5 && blocks[0] == Kv("Status", Title(status))
    requires forall i :: 1 <= i < 5 ==> |blocks[i]| <= |KvOpen| || blocks[i][|KvOpen|] != 'S'
    ensures Kv("Status", Title(other)) in blocks <==> other == status
  {
    if Kv("Status", Title(other)) in blocks {
      var i :| 0 <= i < 5 && blocks[i] == Kv("Status", Title(other));
      assert Kv("Status", Title(other))[|KvOpen|] == 'S';
      assert i == 0;
      KvInjective("Status", Title(other), "Status", Title(status));
      TitlesDistinct(status, other);
    }
  }

  /** The closing line of the customer notice. */
  const ThankYou := "<p style=\"margin-top:12px\">Vielen Dank!</p>"

  /**
    The notice to the customer that a booking was confirmed, declined or
    cancelled. The body's status row names this status and no other; without
    line breaks in the parameters the text is exactly four lines, the first
    being the title.
   */
  function StatusToCustomer(status: CustomerStatus, serviceTitle: string, date: string, time: string,
                            salonName: string): (m: Mail)
    ensures m.title == Title(status) + " · " + salonName
    ensures && Kv("Leistung", serviceTitle) in m.blocks && Kv("Datum", date) in m.blocks
            && Kv("Zeit", time) in m.blocks && ThankYou in m.blocks && |m.blocks| == 5
    ensures forall s: CustomerStatus :: Kv("Status", Title(s)) in m.blocks <==> s == status
    ensures '\n' !in serviceTitle && '\n' !in date && '\n' !in time && '\n' !in salonName ==>
      Split(m.text, '\n') == [m.title, "Leistung: " + serviceTitle, "Datum: " + date, "Zeit: " + time]
  {
    var blocks := [Kv("Status", Title(status)), Kv("Leistung", serviceTitle), Kv("Datum", date),
                   Kv("Zeit", time), ThankYou];
    assert blocks[1][|KvOpen|] == 'L' && blocks[2][|KvOpen|] == 'D' && blocks[3][|KvOpen|] == 'Z';
    assert |blocks[4]| <= |KvOpen|;
    StatusRowsAll(status, blocks);
    StatusTextLines(status, serviceTitle, date, time, salonName);
    Mail(Title(status) + " · " + salonName, blocks, Join(StatusLines(status, serviceTitle, date, time, salonName), '\n'))
  }

  /** `StatusRowNamesOnlyItsStatus` for every other status at once. */
  lemma StatusRowsAll(status: CustomerStatus, blocks: seq<string>)
    requires |blocks| == 5 && blocks[0] == Kv("Status", Title(status))
    requires forall i :: 1 <= i < 5 ==> |blocks[i]| <= |KvOpen| || blocks[i][|KvOpen|] != 'S'
    ensures forall s: CustomerStatus :: Kv("Status", Title(s)) in blocks <==> s == status
  {
    forall s: CustomerStatus {
      StatusRowNamesOnlyItsStatus(status, s, blocks);
    }
  }
}

=== FILE: reminder.dfy ===
/**
  The hourly reminder job: which bookings get a reminder mail, and the mark
  that keeps a booking from getting a second one. Booking starts are whole
  minutes; the job's own clock reading also carries the milliseconds past
  its minute. The customers' e-mail addresses are a map from customer id to
  address.
 */
module Reminder {
  import opened Base
  import opened Schema
  import opened BookingStore

  const MinutesPerHour: int := 60
  /** A reminder goes out for appointments starting between 24 and 25 hours ahead, both bounds excluded. */
  const LeadMin: int := 24 * MinutesPerHour
  const WindowEndMin: int := 25 * MinutesPerHour
  /** The minute of the hour at which the job runs. */
  const TickMinute: int := 5
  const MsPerMinute: int := 60 * 1000

  /**
    The job's clock reading `new Date()`: a whole minute and the
    milliseconds past it, which depend on when within the minute the
    interval fired.
   */
  datatype Clock = Clock(minute: int, ms: int)

  predicate ValidClock(now: Clock)
  {
    0 <= now.ms < MsPerMinute
  }

  /** The reading in milliseconds. */
  function Millis(now: Clock): int
  {
    now.minute * MsPerMinute + now.ms
  }

  /**
    The job's query: confirmed, not yet reminded, starting strictly between
    24 and 25 hours after the clock reading, compared in milliseconds.
   */
  predicate Eligible(b: Booking, now: Clock)
  {
    && b.status == Confirmed && !b.reminderSent
    && Millis(now) + LeadMin * MsPerMinute < b.startsAt * MsPerMinute
    && b.startsAt * MsPerMinute < Millis(now) + WindowEndMin * MsPerMinute
  }

  /**
    The window in whole minutes: a start more than 24 hours after the
    reading's minute, and less than 25 hours after it, or exactly 25 hours
    when the reading is past second 0 of its minute.
   */
  lemma EligibleInMinutes(b: Booking, now: Clock)
    requires ValidClock(now)
    ensures Eligible(b, now) <==>
      && b.status == Confirmed && !b.reminderSent
      && now.minute + LeadMin < b.startsAt
      && (if now.ms == 0 then b.startsAt < now.minute + WindowEndMin else b.startsAt <= now.minute + WindowEndMin)
  {
    var d := b.startsAt - now.minute;
    assert b.startsAt * MsPerMinute - Millis(now) == d * MsPerMinute - now.ms;
    if d <= LeadMin {
      assert d * MsPerMinute <= LeadMin * MsPerMinute;
    }
    if d > WindowEndMin {
      assert d * MsPerMinute >= (WindowEndMin + 1) * MsPerMinute;
    }
  }

  /**
    A booking starting exactly 25 hours after the tick's minute is reminded
    by that tick exactly when the reading is past second 0.
   */
  lemma BoundaryStartNeedsLateReading(b: Booking, now: Clock)
    requires ValidClock(now) && b.status == Confirmed && !b.reminderSent
    requires b.startsAt == now.minute + WindowEndMin
    ensures Eligible(b, now) <==> now.ms > 0
  {
    EligibleInMinutes(b, now);
  }

  /** The customer has an e-mail address (an empty one counts as none). */
  predicate HasEmail(emails: map<Id, string>, b: Booking)
  {
    b.customerId in emails && emails[b.customerId] != ""
  }

  /** The rows the job reads, in table order. */
  function Selected(store: seq<Booking>, now: Clock): (r: seq<Booking>)
    ensures forall b :: b in r <==> b in store && Eligible(b, now)
  {
    if |store| == 0 then []
    else
      assert forall b :: b in store ==> b == store[0] || b in store[1..];
      (if Eligible(store[0], now) then [store[0]] else []) + Selected(store[1..], now)
  }

  /** Some selected booking with key `id` has a customer address, so the rows with that key get marked. */
  predicate Marked(todo: seq<Booking>, emails: map<Id, string>, id: Id)
  {
    exists t :: t in todo && HasEmail(emails, t) && t.id == id
  }

  /**
    Processes the selected bookings in order: one without a customer address
    is skipped; for every other one the reminder is sent (a failed send is
    swallowed by the mailer) and the rows with its key get `reminderSent`.
    Returns the new table and the keys mailed, in order.
   */
  function Process(store: seq<Booking>, todo: seq<Booking>, emails: map<Id, string>): (r: (seq<Booking>, seq<Id>))
    ensures |r.0| == |store|
    ensures forall i :: 0 <= i < |store| ==>
      r.0[i] == if Marked(todo, emails, store[i].id) then store[i].(reminderSent := true) else store[i]
    ensures forall id :: id in r.1 <==> Marked(todo, emails, id)
    decreases |todo|
  {
    if |todo| == 0 then (store, [])
    else
      var b := todo[0];
      assert forall t :: t in todo ==> t == b || t in todo[1..];
      if !HasEmail(emails, b) then Process(store, todo[1..], emails)
      else
        var marked := UpdateBooking(store, b.id, ReminderSentPatch()).0;
        var rest := Process(marked, todo[1..], emails);
        (rest.0, [b.id] + rest.1)
  }

  /** One run of the job at instant `now`. */
  function RunReminder(store: seq<Booking>, now: Clock, emails: map<Id, string>): (r: (seq<Booking>, seq<Id>))
    ensures |r.0| == |store|
    ensures forall i :: 0 <= i < |store| ==> r.0[i].(reminderSent := store[i].reminderSent) == store[i]
  {
    Process(store, Selected(store, now), emails)
  }

  /**
    The effect of a run on one row: it is marked exactly when a row with its
    key was eligible and its customer has an address; an eligible row whose
    customer has none keeps `reminderSent` false.
   */
  lemma RunReminderEffect(store: seq<Booking>, now: Clock, emails: map<Id, string>, i: nat)
    requires i < |store| && UniqueIds(store)
    ensures var r := RunReminder(store, now, emails).0;
            && (Eligible(store[i], now) && HasEmail(emails, store[i]) ==> r[i] == store[i].(reminderSent := true))
            && (!Eligible(store[i], now) || !HasEmail(emails, store[i]) ==> r[i] == store[i])
            && (store[i].id in RunReminder(store, now, emails).1 <==> Eligible(store[i], now) && HasEmail(emails, store[i]))
  {
    var todo := Selected(store, now);
    if Marked(todo, emails, store[i].id) {
      var t :| t in todo && HasEmail(emails, t) && t.id == store[i].id;
      var j :| 0 <= j < |store| && store[j] == t;
      assert j == i;
    }
    if Eligible(store[i], now) && HasEmail(emails, store[i]) {
      assert store[i] in todo;
    }
  }

  /**
    A booking is reminded at most once: whatever instant the next run comes
    at, it mails none of the keys the previous run mailed.
   */
  lemma AtMostOneReminder(store: seq<Booking>, now1: Clock, now2: Clock, emails: map<Id, string>)
    ensures var first := RunReminder(store, now1, emails);
            var second := RunReminder(first.0, now2, emails);
            forall id :: id in first.1 ==> id !in second.1
  {
    var first := RunReminder(store, now1, emails);
    var second := RunReminder(first.0, now2, emails);
    forall id | id in first.1 ensures id !in second.1 {
      forall t | t in Selected(first.0, now2) ensures t.id != id {
        var i :| 0 <= i < |first.0| && first.0[i] == t;
      }
    }
  }

  /** The job body runs on ticks whose minute of the hour is 5, whatever the seconds. */
  predicate RunsAt(t: int)
  {
    t % MinutesPerHour == TickMinute
  }

  /** Any sixty consecutive minutes hold exactly one run. */
  lemma OneRunPerHour(t: int)
    ensures exists k :: t <= k < t + MinutesPerHour && RunsAt(k)
    ensures forall k1, k2 :: t <= k1 < t + MinutesPerHour && t <= k2 < t + MinutesPerHour && RunsAt(k1) && RunsAt(k2) ==> k1 == k2
  {
    var k := t + (TickMinute - t) % MinutesPerHour;
    assert RunsAt(k);
  }
}

=== FILE: routes.dfy ===
/**
  The validation and normalisation the HTTP handlers of the booking API apply
  before they call storage: each handler either responds with an error status
  or proceeds with the arguments it would pass on.
 */
module Routes {
  import opened Base
  import opened Strings
  import opened Schema
  import opened JsValues

  /** A handler's decision: an error response, or the call it goes on to make. */
  datatype Reply<A> = Respond(status: int, message: string, errors: seq<string>) | Proceed(args: A)

  // ---------------------------------------------------------------------------
  // Path ids and dates
  // ---------------------------------------------------------------------------

  /** A numeric path id: `Number(param)` when it is finite. */
  function PathId(param: string): (r: Option<int>)
    ensures r.Some? <==> IsFinite(NumberOfString(param))
    ensures r.Some? ==> NumberOfString(param) == Finite(r.value)
  {
    match NumberOfString(param)
    case Finite(v) => Some(v)
    case _ => None
  }

  /** The services list of a salon: a non-numeric salon id is refused before any read. */
  function HandleListServices(param: string): (r: Reply<int>)
    ensures r.Proceed? <==> IsFinite(NumberOfString(param))
    ensures r.Respond? ==> r.status == 400 && r.message == "invalid salon id"
    ensures r.Proceed? ==> NumberOfString(param) == Finite(r.args)
  {
    match PathId(param)
    case Some(id) => Proceed(id)
    case None => Respond(400, "invalid salon id", [])
  }

  /** A salon id of 310 or more digits is beyond every double, so it is refused like a non-numeric one. */
  lemma LongSalonIdRefused(param: string)
    requires |param| >= 310 && AllDigits(param) && param[0] != '0'
    ensures HandleListServices(param) == Respond(400, "invalid salon id", [])
  {
    LongNumeralIsInfinite(param);
  }

  /** The text matches `^\d{4}-\d{2}-\d{2}$`. */
  predicate IsDateString(s: string)
  {
    && |s| == 10
    && (forall i :: 0 <= i < 10 && i != 4 && i != 7 ==> IsDigit(s[i]))
    && s[4] == '-' && s[7] == '-'
  }

  /** The date pattern is four digits, two digits and two digits joined by hyphens. */
  lemma DateStringShape(s: string)
    ensures IsDateString(s) <==>
      exists y, m, d :: && |y| == 4 && |m| == 2 && |d| == 2 && AllDigits(y) && AllDigits(m) && AllDigits(d)
                        && s == y + "-" + m + "-" + d
  {
    if IsDateString(s) {
      var y, m, d := s[..4], s[5..7], s[8..];
      assert s == y + "-" + m + "-" + d;
      assert AllDigits(y) && AllDigits(m) && AllDigits(d) by {
        forall i | 0 <= i < 2 ensures IsDigit(m[i]) && IsDigit(d[i]) {
          assert m[i] == s[i + 5] && d[i] == s[i + 8];
        }
      }
    }
    if y, m, d :| && |y| == 4 && |m| == 2 && |d| == 2 && AllDigits(y) && AllDigits(m) && AllDigits(d)
                  && s == y + "-" + m + "-" + d {
      forall i | 0 <= i < 10 && i != 4 && i != 7 ensures IsDigit(s[i]) {
        if i < 4 { assert s[i] == y[i]; }
        else if i < 7 { assert s[i] == m[i - 5]; }
        else { assert s[i] == d[i - 8]; }
      }
    }
  }

  // ---------------------------------------------------------------------------
  // GET slots
  // ---------------------------------------------------------------------------

  datatype SlotArgs = SlotArgs(salonId: string, serviceId: string, date: string, stylistId: Option<string>)

  /**
    The slot query: `service_id` must be non-empty and `date` must match the
    date pattern, otherwise 400 and storage is not asked; an empty
    `stylist_id` counts as none.
   */
  function HandleSlots(salonId: string, query: map<string, string>): (r: Reply<SlotArgs>)
    ensures r.Proceed? <==>
      && "service_id" in query && query["service_id"] != ""
      && "date" in query && IsDateString(query["date"])
    ensures r.Respond? ==> r.status == 400
    ensures r.Proceed? ==>
      && r.args.salonId == salonId && r.args.serviceId == query["service_id"]
      && r.args.date == query["date"]
      && (r.args.stylistId.Some? <==> "stylist_id" in query && query["stylist_id"] != "")
      && (r.args.stylistId.Some? ==> r.args.stylistId.value == query["stylist_id"])
  {
    var serviceId := QueryValue(query, "service_id");
    var stylistId := QueryValue(query, "stylist_id");
    var date := QueryValue(query, "date");
    if !Truthy(serviceId) || !Truthy(date) || !IsDateString(date.s) then
      Respond(400, "Bad request: need service_id and date=YYYY-MM-DD", [])
    else
      Proceed(SlotArgs(salonId, serviceId.s, date.s, if Truthy(stylistId) then Some(StringOf(stylistId)) else None))
  }

  // ---------------------------------------------------------------------------
  // POST bookings
  // ---------------------------------------------------------------------------

  datatype CreateArgs = CreateArgs(
    salonId: int, serviceId: int, stylistId: Option<int>, startsAt: string, note: Option<string>)

  /** The three checked field names differ from one another. */
  lemma FieldNamesDistinct()
    ensures "service_id" != "stylist_id" && "service_id" != "starts_at" && "stylist_id" != "starts_at"
  {
    assert "service_id"[1] != "stylist_id"[1];
    assert "service_id"[1] != "starts_at"[1];
    assert |"stylist_id"| != |"starts_at"|;
  }

  /** The names of the invalid fields of a booking body, in the order they are checked. */
  function FieldErrors(body: map<string, JsValue>): (r: seq<string>)
    ensures "service_id" in r <==> !IsFinite(NumberOf(Field(body, "service_id")))
    ensures "stylist_id" in r <==> !LooseNull(Field(body, "stylist_id")) && !IsFinite(NumberOf(Field(body, "stylist_id")))
    ensures "starts_at" in r <==> !Field(body, "starts_at").JStr?
    ensures forall f :: f in r ==> f in ["service_id", "stylist_id", "starts_at"]
  {
    FieldNamesDistinct();
    var stylist := Field(body, "stylist_id");
    (if !IsFinite(NumberOf(Field(body, "service_id"))) then ["service_id"] else [])
    + (if !LooseNull(stylist) && !IsFinite(NumberOf(stylist)) then ["stylist_id"] else [])
    + (if !Field(body, "starts_at").JStr? then ["starts_at"] else [])
  }

  /**
    Creating a booking: a non-numeric salon id is 400; otherwise every field
    error is collected and any error gives 422; only a valid body goes on to
    storage, with an absent or null stylist passed as none.
   */
  function HandleCreateBooking(param: string, body: Option<map<string, JsValue>>): (r: Reply<CreateArgs>)
    ensures !IsFinite(NumberOfString(param)) ==> r == Respond(400, "Invalid salon id", [])
    ensures IsFinite(NumberOfString(param)) ==>
      var b := if body.Some? then body.value else map[];
      && (r.Respond? <==> |FieldErrors(b)| > 0)
      && (r.Respond? ==> r == Respond(422, "Validation failed", FieldErrors(b)))
      && (r.Proceed? ==>
            && NumberOfString(param) == Finite(r.args.salonId)
            && NumberOf(Field(b, "service_id")) == Finite(r.args.serviceId)
            && (r.args.stylistId.None? <==> LooseNull(Field(b, "stylist_id")))
            && (r.args.stylistId.Some? ==> NumberOf(Field(b, "stylist_id")) == Finite(r.args.stylistId.value))
            && Field(b, "starts_at") == JStr(r.args.startsAt)
            && (r.args.note.Some? <==> Field(b, "note").JStr?)
            && (r.args.note.Some? ==> Field(b, "note") == JStr(r.args.note.value)))
  {
    match PathId(param)
    case None => Respond(400, "Invalid salon id", [])
    case Some(salonId) =>
      var b := if body.Some? then body.value else map[];
      var errors := FieldErrors(b);
      if |errors| > 0 then Respond(422, "Validation failed", errors)
      else
        var stylist := Field(b, "stylist_id");
        var note := Field(b, "note");
        Proceed(CreateArgs(
          salonId,
          NumberOf(Field(b, "service_id")).value,
          if LooseNull(stylist) then None else Some(NumberOf(stylist).value),
          StringOf(Field(b, "starts_at")),
          if note.JStr? then Some(note.s) else None))
  }

  /**
    `Number("")` is 0, so an empty-string service id passes the numeric check
    and the booking goes on to storage as service 0.
   */
  lemma EmptyServiceIdIsNumeric(param: string, body: map<string, JsValue>)
    requires IsFinite(NumberOfString(param))
    requires Field(body, "service_id") == JStr("")
    requires LooseNull(Field(body, "stylist_id")) && Field(body, "starts_at").JStr?
    ensures HandleCreateBooking(param, Some(body)).Proceed?
    ensures HandleCreateBooking(param, Some(body)).args.serviceId == 0
  {
    assert NumberOfString("") == Finite(0);
    NoFieldErrors(body);
  }

  /** `Number([])` is 0 as well, so an empty array passes as service 0. */
  lemma EmptyArrayServiceIdIsNumeric(param: string, body: map<string, JsValue>)
    requires IsFinite(NumberOfString(param))
    requires Field(body, "service_id") == JArray([])
    requires LooseNull(Field(body, "stylist_id")) && Field(body, "starts_at").JStr?
    ensures HandleCreateBooking(param, Some(body)).Proceed?
    ensures HandleCreateBooking(param, Some(body)).args.serviceId == 0
  {
    assert NumberOf(JArray([])) == Finite(0);
    NoFieldErrors(body);
  }

  /** A body whose three checked fields are all acceptable has no field errors. */
  lemma NoFieldErrors(body: map<string, JsValue>)
    requires IsFinite(NumberOf(Field(body, "service_id")))
    requires LooseNull(Field(body, "stylist_id")) || IsFinite(NumberOf(Field(body, "stylist_id")))
    requires Field(body, "starts_at").JStr?
    ensures FieldErrors(body) == []
  {
  }

  // ---------------------------------------------------------------------------
  // GET bookings
  // ---------------------------------------------------------------------------

  datatype Scope = Me | SalonScope

  datatype ListArgs = ListArgs(
    scope: Scope, salonId: Option<Num>, from: Option<string>, to: Option<string>,
    status: Option<Status>, limit: Num, offset: Num)

  const DefaultLimit: int := 50
  const MaxLimit: int := 100

  /** `Math.min(100, Math.max(1, n))`; NaN stays NaN and an infinity lands on a bound. */
  function ClampLimit(n: Num): (r: Num)
    ensures r.NaN? <==> n.NaN?
    ensures r.Finite? ==> 1 <= r.value <= MaxLimit
    ensures n.Finite? && 1 <= n.value <= MaxLimit ==> r == n
    ensures n.Infinite? ==> r == Finite(if n.negative then 1 else MaxLimit)
  {
    match n
    case NaN => NaN
    case Infinite(negative) => Finite(if negative then 1 else MaxLimit)
    case Finite(v) => Finite(if v < 1 then 1 else if v > MaxLimit then MaxLimit else v)
  }

  /** `Math.max(0, n)`; NaN stays NaN, minus infinity becomes 0 and plus infinity stays. */
  function ClampOffset(n: Num): (r: Num)
    ensures r.NaN? <==> n.NaN?
    ensures r.Finite? ==> r.value >= 0 && (n.Finite? && n.value >= 0 ==> r == n)
    ensures n.Infinite? ==> r == (if n.negative then Finite(0) else n)
  {
    match n
    case NaN => NaN
    case Infinite(negative) => if negative then Finite(0) else n
    case Finite(v) => Finite(if v < 0 then 0 else v)
  }

  /** A truthy query parameter, or none. */
  function Present(query: map<string, string>, key: string): (r: Option<string>)
    ensures r.Some? <==> key in query && query[key] != ""
    ensures r.Some? ==> r.value == query[key]
  {
    if key in query && query[key] != "" then Some(query[key]) else None
  }

  function ParseScope(query: map<string, string>): (r: Option<Scope>)
    ensures r == Some(Me) <==> Present(query, "scope") == Some("me")
    ensures r == Some(SalonScope) <==> Present(query, "scope") == Some("salon")
  {
    match Present(query, "scope")
    case Some(s) => if s == "me" then Some(Me) else if s == "salon" then Some(SalonScope) else None
    case None => None
  }

  /** `limit`: 50 when absent or empty, otherwise its number clamped into [1, 100]. */
  function ListLimit(query: map<string, string>): (r: Num)
    ensures Present(query, "limit").None? ==> r == Finite(DefaultLimit)
    ensures Present(query, "limit").Some? ==> r == ClampLimit(NumberOfString(query["limit"]))
    ensures r.Finite? ==> 1 <= r.value <= MaxLimit
  {
    match Present(query, "limit")
    case Some(s) => ClampLimit(NumberOfString(s))
    case None => Finite(DefaultLimit)
  }

  /** `offset`: 0 when absent or empty, otherwise its number raised to at least 0. */
  function ListOffset(query: map<string, string>): (r: Num)
    ensures Present(query, "offset").None? ==> r == Finite(0)
    ensures Present(query, "offset").Some? ==> r == ClampOffset(NumberOfString(query["offset"]))
    ensures r.Finite? ==> r.value >= 0
  {
    match Present(query, "offset")
    case Some(s) => ClampOffset(NumberOfString(s))
    case None => Finite(0)
  }

  /** `salon_id` as a number, or none when absent or empty. */
  function ListSalonId(query: map<string, string>): (r: Option<Num>)
    ensures r.Some? <==> Present(query, "salon_id").Some?
    ensures r.Some? ==> r.value == NumberOfString(query["salon_id"])
  {
    match Present(query, "salon_id")
    case Some(s) => Some(NumberOfString(s))
    case None => None
  }

  /** Both date bounds are absent or match the date pattern. */
  predicate DatesOk(query: map<string, string>)
  {
    && (Present(query, "from").Some? ==> IsDateString(query["from"]))
    && (Present(query, "to").Some? ==> IsDateString(query["to"]))
  }

  /** The message of the first check the list query fails, in the order the checks are made; none when all pass. */
  function ListRejection(query: map<string, string>): (r: Option<string>)
    ensures ParseScope(query).None? ==> r == Some("Bad request: scope=me|salon required")
    ensures ParseScope(query).Some? && Present(query, "status").Some? && ParseStatus(query["status"]).None?
            ==> r == Some("Bad request: invalid status")
    ensures ParseScope(query).Some? && (Present(query, "status").None? || ParseStatus(query["status"]).Some?)
            && !DatesOk(query)
            ==> r == Some("Bad request: from/to must be YYYY-MM-DD")
    ensures r.None? <==>
      && ParseScope(query).Some?
      && (Present(query, "status").Some? ==> ParseStatus(query["status"]).Some?)
      && DatesOk(query)
      && (ParseScope(query) == Some(SalonScope) ==>
            Present(query, "salon_id").Some? && IsFinite(NumberOfString(query["salon_id"])))
  {
    var salonId := ListSalonId(query);
    var from := Present(query, "from");
    var to := Present(query, "to");
    var status := Present(query, "status");
    match ParseScope(query)
    case None => Some("Bad request: scope=me|salon required")
    case Some(scope) =>
      if status.Some? && ParseStatus(status.value).None? then Some("Bad request: invalid status")
      else if (from.Some? && !IsDateString(from.value)) || (to.Some? && !IsDateString(to.value)) then
        Some("Bad request: from/to must be YYYY-MM-DD")
      else if scope == SalonScope && !(salonId.Some? && IsFinite(salonId.value)) then
        Some("Bad request: salon_id is required for scope=salon")
      else None
  }

  /**
    Listing bookings. Rejects, in this order: a scope other than `me` or
    `salon`; a status other than the four; a malformed `from` or `to`; a
    salon scope without a numeric `salon_id`. `limit` defaults to 50 and is
    clamped into [1, 100]; `offset` defaults to 0 and is never negative; a
    non-numeric one stays NaN.
   */
  function HandleListBookings(query: map<string, string>): (r: Reply<ListArgs>)
    ensures ParseScope(query).None? ==> r == Respond(400, "Bad request: scope=me|salon required", [])
    ensures ParseScope(query).Some? && Present(query, "status").Some? && ParseStatus(query["status"]).None?
            ==> r == Respond(400, "Bad request: invalid status", [])
    ensures ParseScope(query).Some? && (Present(query, "status").None? || ParseStatus(query["status"]).Some?)
            && !DatesOk(query)
            ==> r == Respond(400, "Bad request: from/to must be YYYY-MM-DD", [])
    ensures r.Proceed? <==>
      && ParseScope(query).Some?
      && (Present(query, "status").Some? ==> ParseStatus(query["status"]).Some?)
      && DatesOk(query)
      && (ParseScope(query) == Some(SalonScope) ==>
            Present(query, "salon_id").Some? && IsFinite(NumberOfString(query["salon_id"])))
    ensures r.Proceed? ==>
      && r.args.scope == ParseScope(query).value
      && (Present(query, "limit").None? ==> r.args.limit == Finite(DefaultLimit))
      && (Present(query, "limit").Some? ==> r.args.limit == ClampLimit(NumberOfString(query["limit"])))
      && (Present(query, "offset").None? ==> r.args.offset == Finite(0))
      && (Present(query, "offset").Some? ==> r.args.offset == ClampOffset(NumberOfString(query["offset"])))
      && (r.args.limit.Finite? ==> 1 <= r.args.limit.value <= MaxLimit)
      && (r.args.offset.Finite? ==> r.args.offset.value >= 0)
  {
    match ListRejection(query)
    case Some(message) => Respond(400, message, [])
    case None =>
      var status := Present(query, "status");
      Proceed(ListArgs(ParseScope(query).value, ListSalonId(query), Present(query, "from"), Present(query, "to"),
                       if status.Some? then ParseStatus(status.value) else None, ListLimit(query), ListOffset(query)))
  }


  // ---------------------------------------------------------------------------
  // PATCH booking status
  // ---------------------------------------------------------------------------

  /** The forwarded call: `to` is the body's `status` value itself, not its text. */
  datatype PatchArgs = PatchArgs(bookingId: int, salonId: int, to: JsValue, reason: Option<string>)

  /**
    Only a string, or an array whose comma-joined text is a status word, can
    pass the status whitelist: `String(...)` of a number, a boolean, null,
    undefined or a plain object is never one of the four words.
   */
  lemma StatusWordShape(v: JsValue)
    requires ParseStatus(StringOf(v)).Some?
    ensures v.JStr? || v.JArray?
  {
    assert StringOf(v) in {"requested", "confirmed", "declined", "cancelled"};
  }

  /**
    The status change: booking id and `salon_id` must be numeric and the
    status must spell one of the four words once coerced with `String(...)`,
    otherwise 400. The value is forwarded as it came, so a one-element array
    such as `["confirmed"]` passes too. The current status of the booking
    plays no part: every one of the four targets is accepted.
   */
  function HandleStatusPatch(param: string, query: map<string, string>, body: Option<map<string, JsValue>>)
    : (r: Reply<PatchArgs>)
    ensures var b := if body.Some? then body.value else map[];
      && (r.Proceed? <==>
            && IsFinite(NumberOfString(param)) && IsFinite(NumberOf(QueryValue(query, "salon_id")))
            && ParseStatus(StringOf(Field(b, "status"))).Some?)
      && (r.Respond? ==> r.status == 400)
      && (r.Proceed? ==>
            && NumberOfString(param) == Finite(r.args.bookingId)
            && NumberOf(QueryValue(query, "salon_id")) == Finite(r.args.salonId)
            && r.args.to == Field(b, "status")
            && (r.args.to.JStr? || r.args.to.JArray?)
            && (r.args.reason.Some? <==> Field(b, "reason").JStr?)
            && (r.args.reason.Some? ==> Field(b, "reason") == JStr(r.args.reason.value)))
  {
    var b := if body.Some? then body.value else map[];
    var bookingId := NumberOfString(param);
    var salonId := NumberOf(QueryValue(query, "salon_id"));
    var status := Field(b, "status");
    var reason := Field(b, "reason");
    if !IsFinite(bookingId) || !IsFinite(salonId) then
      Respond(400, "Bad request: booking id & salon_id required", [])
    else if ParseStatus(StringOf(status)).None? then
      Respond(400, "Bad request: invalid status", [])
    else
      StatusWordShape(status);
      Proceed(PatchArgs(bookingId.value, salonId.value, status, if reason.JStr? then Some(reason.s) else None))
  }

  /**
    Any of the four statuses is accepted for numeric ids, whatever the
    booking's current status, and the word is forwarded as given.
   */
  lemma PatchAcceptsEveryStatus(param: string, query: map<string, string>, body: map<string, JsValue>, to: Status)
    requires IsFinite(NumberOfString(param)) && IsFinite(NumberOf(QueryValue(query, "salon_id")))
    requires Field(body, "status") == JStr(StatusName(to))
    ensures HandleStatusPatch(param, query, Some(body)).Proceed?
    ensures HandleStatusPatch(param, query, Some(body)).args.to == JStr(StatusName(to))
  {
    StatusNameRoundTrip(to);
    assert StringOf(JStr(StatusName(to))) == StatusName(to);
  }

  /** A one-element array holding a status word passes, and the array itself is forwarded. */
  lemma ArrayStatusPasses(param: string, query: map<string, string>, body: map<string, JsValue>, to: Status)
    requires IsFinite(NumberOfString(param)) && IsFinite(NumberOf(QueryValue(query, "salon_id")))
    requires Field(body, "status") == JArray([JStr(StatusName(to))])
    ensures HandleStatusPatch(param, query, Some(body)).Proceed?
    ensures HandleStatusPatch(param, query, Some(body)).args.to == JArray([JStr(StatusName(to))])
  {
    StatusNameRoundTrip(to);
    SingletonArray(JStr(StatusName(to)));
  }
}

=== FILE: salons.dfy ===
/**
  The salon list: every salon row with up to three of its services, grouped
  from one read of the service table in table order.
 */
module Salons {
  import opened Schema

  datatype SalonRow = SalonRow(id: Id, name: string, slug: string, address: string)
  datatype ServiceRow = ServiceRow(id: Id, salonId: Id, title: string, priceCents: int)
  /** A service as the salon list shows it. */
  datatype ServiceSummary = ServiceSummary(id: Id, title: string, priceCents: int)
  datatype SalonListItem = SalonListItem(
    id: Id, name: string, slug: string, address: string, services: seq<ServiceSummary>)

  /** The most services shown per salon. */
  const ServicesPerSalon: nat := 3

  function Summary(row: ServiceRow): ServiceSummary
  {
    ServiceSummary(row.id, row.title, row.priceCents)
  }

  /** The services of salon `salonId`, in table order. */
  function ServicesOf(rows: seq<ServiceRow>, salonId: Id): (r: seq<ServiceSummary>)
    ensures |r| <= |rows|
    decreases |rows|
  {
    if |rows| == 0 then []
    else ServicesOf(rows[..|rows| - 1], salonId) + if rows[|rows| - 1].salonId == salonId then [Summary(rows[|rows| - 1])] else []
  }

  /** The group of a salon holds exactly the summaries of that salon's rows. */
  lemma {:induction false} ServicesOfMembers(rows: seq<ServiceRow>, salonId: Id, x: ServiceSummary)
    ensures x in ServicesOf(rows, salonId) <==> exists row :: row in rows && row.salonId == salonId && Summary(row) == x
    decreases |rows|
  {
    if |rows| > 0 {
      var init := rows[..|rows| - 1];
      var last := rows[|rows| - 1];
      ServicesOfMembers(init, salonId, x);
      assert rows == init + [last];
      assert forall row :: row in rows <==> row in init || row == last;
    }
  }

  function Take<T>(s: seq<T>, n: nat): (r: seq<T>)
    ensures |r| <= n && |r| <= |s| && r == s[..|r|]
    ensures |s| >= n ==> |r| == n
    ensures |s| < n ==> r == s
  {
    if |s| <= n then s else s[..n]
  }

  function Ids(salonRows: seq<SalonRow>): (r: seq<Id>)
    ensures |r| == |salonRows| && forall i :: 0 <= i < |r| ==> r[i] == salonRows[i].id
  {
    if |salonRows| == 0 then [] else [salonRows[0].id] + Ids(salonRows[1..])
  }

  /** Reading one more row extends the group of its salon and no other. */
  lemma ServicesOfSnoc(rows: seq<ServiceRow>, k: nat, id: Id)
    requires k < |rows|
    ensures ServicesOf(rows[..k + 1], id)
            == ServicesOf(rows[..k], id) + if rows[k].salonId == id then [Summary(rows[k])] else []
  {
    assert rows[..k + 1][..k] == rows[..k];
  }

  /** The group stored for `id`, or none. */
  function Lookup(groups: map<Id, seq<ServiceSummary>>, id: Id): seq<ServiceSummary>
  {
    if id in groups then groups[id] else []
  }

  /** The services of the listed salons, grouped by salon id in table order. */
  method GroupServices(ids: seq<Id>, serviceRows: seq<ServiceRow>) returns (m: map<Id, seq<ServiceSummary>>)
    ensures forall id :: id in m ==> id in ids
    ensures forall id :: id in ids ==> Lookup(m, id) == ServicesOf(serviceRows, id)
  {
    m := map[];
    var k := 0;
    while k < |serviceRows|
      invariant 0 <= k <= |serviceRows|
      invariant forall id :: id in m ==> id in ids
      invariant forall id :: id in ids ==> Lookup(m, id) == ServicesOf(serviceRows[..k], id)
    {
      var row := serviceRows[k];
      var next := if row.salonId in ids then m[row.salonId := Lookup(m, row.salonId) + [Summary(row)]] else m;
      forall id | id in ids ensures Lookup(next, id) == ServicesOf(serviceRows[..k + 1], id) {
        ServicesOfSnoc(serviceRows, k, id);
      }
      m := next;
      k := k + 1;
    }
    assert serviceRows[..k] == serviceRows;
  }

  /** The list item of salon row `s`, its services looked up in the grouped map. */
  function ItemFrom(s: SalonRow, groups: map<Id, seq<ServiceSummary>>): SalonListItem
  {
    SalonListItem(s.id, s.name, s.slug, s.address, Take(Lookup(groups, s.id), ServicesPerSalon))
  }

  /** Every salon row, in order, mapped to its list item. */
  method ItemsFrom(salonRows: seq<SalonRow>, groups: map<Id, seq<ServiceSummary>>) returns (r: seq<SalonListItem>)
    ensures |r| == |salonRows| && forall j :: 0 <= j < |r| ==> r[j] == ItemFrom(salonRows[j], groups)
  {
    r := [];
    var i := 0;
    while i < |salonRows|
      invariant 0 <= i <= |salonRows| && |r| == i
      invariant forall j :: 0 <= j < i ==> r[j] == ItemFrom(salonRows[j], groups)
    {
      r := r + [ItemFrom(salonRows[i], groups)];
      i := i + 1;
    }
  }

  /**
    Groups the services read for the listed salons by salon id, then maps
    every salon row, in order, to its list item with its first three services.
   */
  method GetSalons(salonRows: seq<SalonRow>, serviceRows: seq<ServiceRow>) returns (r: seq<SalonListItem>)
    ensures |r| == |salonRows|
    ensures forall i :: 0 <= i < |r| ==>
      && r[i].id == salonRows[i].id && r[i].name == salonRows[i].name
      && r[i].slug == salonRows[i].slug && r[i].address == salonRows[i].address
      && r[i].services == Take(ServicesOf(serviceRows, salonRows[i].id), ServicesPerSalon)
  {
    if |salonRows| == 0 {
      return [];
    }
    var ids := Ids(salonRows);
    var serviceMap := GroupServices(ids, serviceRows);
    r := ItemsFrom(salonRows, serviceMap);
    forall k | 0 <= k < |r|
      ensures r[k].services == Take(ServicesOf(serviceRows, salonRows[k].id), ServicesPerSalon)
    {
      assert ids[k] == salonRows[k].id;
    }
  }

  /**
    Each listed service is one of the salon's own, at most three are shown,
    and a salon with three or more services shows exactly three.
   */
  lemma ListedServicesBelongToSalon(serviceRows: seq<ServiceRow>, salonId: Id, x: ServiceSummary)
    ensures var shown := Take(ServicesOf(serviceRows, salonId), ServicesPerSalon);
            && |shown| <= ServicesPerSalon
            && (x in shown ==> exists row :: row in serviceRows && row.salonId == salonId && Summary(row) == x)
            && (|ServicesOf(serviceRows, salonId)| >= ServicesPerSalon ==> |shown| == ServicesPerSalon)
  {
    var all := ServicesOf(serviceRows, salonId);
    var shown := Take(all, ServicesPerSalon);
    if x in shown {
      var j :| 0 <= j < |shown| && shown[j] == x;
      assert all[j] == x;
      ServicesOfMembers(serviceRows, salonId, x);
    }
  }
}

=== FILE: schema.dfy ===
/**
  The records of the booking core, one datatype per table the engine reads or
  writes, with the column defaults the table definitions declare.
  Identifiers are the tables' `varchar` keys; timestamps are instants in whole
  minutes; work-hour times are minutes after local midnight.
 */
module Schema {
  import opened Base

  type Id = string

  /** The four values of the booking `status` column. */
  datatype Status = Requested | Confirmed | Declined | Cancelled

  /** The status every new booking gets when none is given. */
  const DefaultStatus: Status := Requested

  /** The spelling of each status in the database and on the wire. */
  function StatusName(s: Status): string
  {
    match s
    case Requested => "requested"
    case Confirmed => "confirmed"
    case Declined => "declined"
    case Cancelled => "cancelled"
  }

  /** Reads a status word; anything but the four spellings is rejected. */
  function ParseStatus(w: string): (r: Option<Status>)
    ensures r.Some? <==> w in {"requested", "confirmed", "declined", "cancelled"}
    ensures r.Some? ==> StatusName(r.value) == w
  {
    if w == "requested" then Some(Requested)
    else if w == "confirmed" then Some(Confirmed)
    else if w == "declined" then Some(Declined)
    else if w == "cancelled" then Some(Cancelled)
    else None
  }

  lemma StatusNameRoundTrip(s: Status)
    ensures ParseStatus(StatusName(s)) == Some(s)
  {
  }

  datatype Service = Service(
    id: Id, salonId: Id, title: string, durationMin: int, priceCents: int, active: bool)

  datatype Stylist = Stylist(
    id: Id, salonId: Id, userId: Id, displayName: string, avatarUrl: Option<string>,
    active: bool, isApprentice: bool)

  /** A `time` column value: minutes after local midnight, 00:00 to 24:00. */
  type MinuteOfDay = m: int | 0 <= m <= 1440

  /** A weekly work-hour rule; `weekday` counts from 0 = Sunday and is not range-checked by the table. */
  datatype WorkHour = WorkHour(
    id: Id, salonId: Id, stylistId: Id, weekday: int, startMin: MinuteOfDay, endMin: MinuteOfDay)

  datatype Absence = Absence(
    id: Id, salonId: Id, stylistId: Id, startsAt: int, endsAt: int, reason: Option<string>)

  /** A booking row; the stylist reference is nullable (set to null when the stylist is deleted). */
  datatype Booking = Booking(
    id: Id, salonId: Id, customerId: Id, stylistId: Option<Id>, serviceId: Id,
    startsAt: int, endsAt: int, status: Status, reminderSent: bool, note: Option<string>)

  /** The insert shape of a service: `active` may be omitted. */
  datatype ServiceInput = ServiceInput(
    salonId: Id, title: string, durationMin: int, priceCents: int, active: Option<bool>)

  /** The insert shape of a stylist: `active` and `isApprentice` may be omitted. */
  datatype StylistInput = StylistInput(
    salonId: Id, userId: Id, displayName: string, avatarUrl: Option<string>,
    active: Option<bool>, isApprentice: Option<bool>)

  /** The insert shape of a booking: `status` and `reminderSent` may be omitted. */
  datatype BookingInput = BookingInput(
    salonId: Id, customerId: Id, stylistId: Option<Id>, serviceId: Id,
    startsAt: int, endsAt: int, status: Option<Status>, reminderSent: Option<bool>,
    note: Option<string>)

  function OrDefault<T>(v: Option<T>, d: T): T
  {
    match v
    case Some(x) => x
    case None => d
  }

  /** The row the database stores for a service insert under the generated key `id`. */
  function InsertService(id: Id, input: ServiceInput): (s: Service)
    ensures input.active.None? ==> s.active
    ensures input.active.Some? ==> s.active == input.active.value
    ensures s.id == id && s.salonId == input.salonId && s.durationMin == input.durationMin
    ensures s.priceCents == input.priceCents && s.title == input.title
  {
    Service(id, input.salonId, input.title, input.durationMin, input.priceCents,
            OrDefault(input.active, true))
  }

  /** The row the database stores for a stylist insert under the generated key `id`. */
  function InsertStylist(id: Id, input: StylistInput): (s: Stylist)
    ensures input.active.None? ==> s.active
    ensures input.isApprentice.None? ==> !s.isApprentice
    ensures input.active.Some? ==> s.active == input.active.value
    ensures input.isApprentice.Some? ==> s.isApprentice == input.isApprentice.value
    ensures s.id == id && s.salonId == input.salonId && s.userId == input.userId
    ensures s.displayName == input.displayName && s.avatarUrl == input.avatarUrl
  {
    Stylist(id, input.salonId, input.userId, input.displayName, input.avatarUrl,
            OrDefault(input.active, true), OrDefault(input.isApprentice, false))
  }

  /** The row the database stores for a booking insert under the generated key `id`. */
  function InsertBooking(id: Id, input: BookingInput): (b: Booking)
    ensures input.status.None? ==> b.status == Requested
    ensures input.status.Some? ==> b.status == input.status.value
    ensures input.reminderSent.None? ==> !b.reminderSent
    ensures input.reminderSent.Some? ==> b.reminderSent == input.reminderSent.value
    ensures b.id == id && b.stylistId == input.stylistId && b.salonId == input.salonId
    ensures b.startsAt == input.startsAt && b.endsAt == input.endsAt
    ensures b.customerId == input.customerId && b.serviceId == input.serviceId && b.note == input.note
  {
    Booking(id, input.salonId, input.customerId, input.stylistId, input.serviceId,
            input.startsAt, input.endsAt, OrDefault(input.status, DefaultStatus),
            OrDefault(input.reminderSent, false), input.note)
  }
}

=== FILE: slotorder.dfy ===
/**
  Free slots and the order the slot query returns them in: ascending start,
  ties broken by stylist id.
 */
module SlotOrder {
  import opened Strings

  /** A bookable interval `[start, end)` of one stylist. */
  datatype Slot = Slot(start: int, end: int, stylistId: string)

  /** `a` may precede `b`: earlier start, or same start and a smaller-or-equal stylist id. */
  predicate SlotLe(a: Slot, b: Slot)
  {
    a.start < b.start || (a.start == b.start && StrLe(a.stylistId, b.stylistId))
  }

  predicate Sorted(s: seq<Slot>)
  {
    forall i, j :: 0 <= i < j < |s| ==> SlotLe(s[i], s[j])
  }

  lemma SlotLeTotal(a: Slot, b: Slot)
    ensures SlotLe(a, b) || SlotLe(b, a)
  {
    StrLeTotal(a.stylistId, b.stylistId);
  }

  lemma SlotLeTransitive(a: Slot, b: Slot, c: Slot)
    requires SlotLe(a, b) && SlotLe(b, c)
    ensures SlotLe(a, c)
  {
    if a.start == b.start && b.start == c.start {
      StrLeTransitive(a.stylistId, b.stylistId, c.stylistId);
    }
  }

  /** A slot below every element of a sorted sequence may be put in front of it. */
  lemma PrependSorted(a: Slot, t: seq<Slot>)
    requires Sorted(t)
    requires forall y :: y in t ==> SlotLe(a, y)
    ensures Sorted([a] + t)
  {
    var r := [a] + t;
    forall i, j | 0 <= i < j < |r| ensures SlotLe(r[i], r[j]) {
      assert r[j] == t[j - 1];
      if i > 0 { assert r[i] == t[i - 1]; }
    }
  }

  /** Anything that may precede the head of a sorted sequence may precede all of it. */
  lemma BelowHeadBelowAll(x: Slot, s: seq<Slot>)
    requires Sorted(s) && |s| > 0 && SlotLe(x, s[0])
    ensures forall y :: y in s ==> SlotLe(x, y)
  {
    forall y | y in s ensures SlotLe(x, y) {
      var k :| 0 <= k < |s| && s[k] == y;
      if k > 0 { SlotLeTransitive(x, s[0], s[k]); }
    }
  }

  /** The head of a sorted sequence may precede every element of the rest with `x` added. */
  lemma HeadBelowRest(x: Slot, s: seq<Slot>, tail: seq<Slot>)
    requires Sorted(s) && |s| > 0 && !SlotLe(x, s[0])
    requires multiset(tail) == multiset(s[1..]) + multiset{x}
    ensures forall y :: y in tail ==> SlotLe(s[0], y)
  {
    SlotLeTotal(x, s[0]);
    forall y | y in tail ensures SlotLe(s[0], y) {
      assert y in multiset(tail);
      if y != x {
        assert y in multiset(s[1..]);
        assert y in s[1..];
        var k :| 0 <= k < |s[1..]| && s[1..][k] == y;
        assert s[k + 1] == y;
      }
    }
  }

  /** Places `x` before the first element it may precede. */
  function Insert(x: Slot, s: seq<Slot>): (r: seq<Slot>)
    requires Sorted(s)
    ensures Sorted(r)
    ensures multiset(r) == multiset(s) + multiset{x}
    decreases |s|
  {
    if |s| == 0 then [x]
    else if SlotLe(x, s[0]) then
      BelowHeadBelowAll(x, s);
      PrependSorted(x, s);
      [x] + s
    else
      var tail := Insert(x, s[1..]);
      assert Sorted(s[1..]) by {
        forall i, j | 0 <= i < j < |s[1..]| ensures SlotLe(s[1..][i], s[1..][j]) {
          assert s[1..][i] == s[i + 1] && s[1..][j] == s[j + 1];
        }
      }
      HeadBelowRest(x, s, tail);
      PrependSorted(s[0], tail);
      assert s == [s[0]] + s[1..];
      [s[0]] + tail
  }

  /** Sorts slots by (start, stylist id); the result is a permutation of the input. */
  function SortSlots(s: seq<Slot>): (r: seq<Slot>)
    ensures Sorted(r)
    ensures multiset(r) == multiset(s)
    decreases |s|
  {
    if |s| == 0 then []
    else
      assert s == [s[0]] + s[1..];
      Insert(s[0], SortSlots(s[1..]))
  }

  /** Sorting keeps exactly the slots it was given. */
  lemma SortSlotsSameMembers(s: seq<Slot>, x: Slot)
    ensures x in SortSlots(s) <==> x in s
  {
    var r := SortSlots(s);
    assert x in r <==> x in multiset(r);
    assert x in s <==> x in multiset(s);
  }
}

=== FILE: strings.dfy ===
/**
  String helpers the server relies on through JavaScript built-ins:
  `String.prototype.split` on one character, the inverse join, `trim`, and
  code-unit lexicographic comparison (the order `localeCompare` gives to the
  ASCII identifiers the tables use).
 */
module Strings {

  predicate IsDigit(c: char) { '0' <= c <= '9' }

  /** The characters `String.prototype.trim` removes: white space and line terminators. */
  predicate IsSpace(c: char)
  {
    || c == ' ' || c == '\t' || c == '\n' || c == '\r'
    || c == '\U{B}' || c == '\U{C}' || c == '\U{A0}' || c == '\U{1680}'
    || ('\U{2000}' <= c <= '\U{200A}')
    || c == '\U{2028}' || c == '\U{2029}' || c == '\U{202F}' || c == '\U{205F}'
    || c == '\U{3000}' || c == '\U{FEFF}'
  }

  // ---------------------------------------------------------------------------
  // Lexicographic order
  // ---------------------------------------------------------------------------

  /** `a` sorts before or equal to `b`, comparing code units left to right. */
  predicate StrLe(a: string, b: string)
    decreases |a|
  {
    if |a| == 0 then true
    else if |b| == 0 then false
    else if a[0] != b[0] then a[0] < b[0]
    else StrLe(a[1..], b[1..])
  }

  lemma {:induction false} StrLeTotal(a: string, b: string)
    ensures StrLe(a, b) || StrLe(b, a)
    decreases |a|
  {
    if |a| > 0 && |b| > 0 && a[0] == b[0] {
      StrLeTotal(a[1..], b[1..]);
    }
  }

  lemma {:induction false} StrLeTransitive(a: string, b: string, c: string)
    requires StrLe(a, b) && StrLe(b, c)
    ensures StrLe(a, c)
    decreases |a|
  {
    if |a| > 0 && a[0] == b[0] && b[0] == c[0] {
      StrLeTransitive(a[1..], b[1..], c[1..]);
    }
  }

  lemma {:induction false} StrLeAntisymmetric(a: string, b: string)
    requires StrLe(a, b) && StrLe(b, a)
    ensures a == b
    decreases |a|
  {
    if |a| > 0 {
      StrLeAntisymmetric(a[1..], b[1..]);
      assert a == [a[0]] + a[1..];
      assert b == [b[0]] + b[1..];
    }
  }

  // ---------------------------------------------------------------------------
  // split / join on one separator character
  // ---------------------------------------------------------------------------

  /** `s.split(sep)`: the pieces between separators, always at least one. */
  function Split(s: string, sep: char): (r: seq<string>)
    ensures |r| >= 1
    ensures forall i :: 0 <= i < |r| ==> sep !in r[i]
    decreases |s|
  {
    if |s| == 0 then [""]
    else
      var rest := Split(s[1..], sep);
      if s[0] == sep then [""] + rest
      else [[s[0]] + rest[0]] + rest[1..]
  }

  /** `parts.join(sep)`. */
  function Join(parts: seq<string>, sep: char): string
    decreases |parts|
  {
    if |parts| == 0 then ""
    else if |parts| == 1 then parts[0]
    else parts[0] + [sep] + Join(parts[1..], sep)
  }

  /** Splitting a separator-free prefix followed by the separator peels off that prefix. */
  lemma {:induction false} SplitAfterPiece(p: string, sep: char, t: string)
    requires sep !in p
    ensures Split(p + [sep] + t, sep) == [p] + Split(t, sep)
    decreases |p|
  {
    if |p| == 0 {
      assert p + [sep] + t == [sep] + t;
      assert ([sep] + t)[1..] == t;
    } else {
      var s := p + [sep] + t;
      assert s[0] == p[0];
      assert s[1..] == p[1..] + [sep] + t;
      SplitAfterPiece(p[1..], sep, t);
      assert [p[0]] + p[1..] == p;
    }
  }

  /** A separator-free string is a single piece. */
  lemma {:induction false} SplitNoSeparator(p: string, sep: char)
    requires sep !in p
    ensures Split(p, sep) == [p]
    decreases |p|
  {
    if |p| > 0 {
      SplitNoSeparator(p[1..], sep);
      assert [p[0]] + p[1..] == p;
    }
  }

  /** `join` undoes `split`. */
  lemma {:induction false} JoinSplit(s: string, sep: char)
    ensures Join(Split(s, sep), sep) == s
    decreases |s|
  {
    if |s| > 0 {
      var rest := Split(s[1..], sep);
      JoinSplit(s[1..], sep);
      if s[0] == sep {
        assert Split(s, sep) == [""] + rest;
        assert ([""] + rest)[1..] == rest;
        assert s == [sep] + s[1..];
      } else {
        var parts := [[s[0]] + rest[0]] + rest[1..];
        assert Split(s, sep) == parts;
        if |rest| == 1 {
          assert s == [s[0]] + rest[0];
        } else {
          assert parts[1..] == rest[1..];
          assert Join(rest, sep) == rest[0] + [sep] + Join(rest[1..], sep);
          assert s == [s[0]] + s[1..];
        }
      }
    }
  }

  /** `split` undoes `join` when no part contains the separator. */
  lemma {:induction false} SplitJoin(parts: seq<string>, sep: char)
    requires |parts| >= 1
    requires forall i :: 0 <= i < |parts| ==> sep !in parts[i]
    ensures Split(Join(parts, sep), sep) == parts
    decreases |parts|
  {
    if |parts| == 1 {
      SplitNoSeparator(parts[0], sep);
    } else {
      SplitJoin(parts[1..], sep);
      SplitAfterPiece(parts[0], sep, Join(parts[1..], sep));
      assert [parts[0]] + parts[1..] == parts;
    }
  }

  // ---------------------------------------------------------------------------
  // trim
  // ---------------------------------------------------------------------------

  /** Neither end of `s` is white space. */
  predicate Trimmed(s: string)
  {
    |s| == 0 || (!IsSpace(s[0]) && !IsSpace(s[|s| - 1]))
  }

  function TrimStart(s: string): (r: string)
    ensures |r| <= |s| && r == s[|s| - |r|..]
    ensures forall i :: 0 <= i < |s| - |r| ==> IsSpace(s[i])
    ensures |r| > 0 ==> !IsSpace(r[0])
    decreases |s|
  {
    if |s| > 0 && IsSpace(s[0]) then TrimStart(s[1..]) else s
  }

  function TrimEnd(s: string): (r: string)
    ensures |r| <= |s| && r == s[..|r|]
    ensures forall i :: |r| <= i < |s| ==> IsSpace(s[i])
    ensures |r| > 0 ==> !IsSpace(r[|r| - 1])
    decreases |s|
  {
    if |s| > 0 && IsSpace(s[|s| - 1]) then TrimEnd(s[..|s| - 1]) else s
  }

  /** `s.trim()`: the longest infix of `s` whose ends are not white space. */
  function Trim(s: string): (r: string)
    ensures Trimmed(r)
    ensures |r| <= |s|
  {
    var t := TrimStart(s);
    var r := TrimEnd(t);
    assert |r| > 0 ==> r[0] == t[0];
    r
  }

  /** Trimming a string whose ends are not white space leaves it unchanged. */
  lemma TrimOfTrimmed(s: string)
    requires Trimmed(s)
    ensures Trim(s) == s
  {
  }
}

=== FILE: timewindow.dfy ===
/**
  Time-window primitives of the slot engine: instants are whole minutes,
  intervals are half-open `[start, end)`, and a work-hour window is walked on a
  fixed 15-minute grid, each candidate slot lasting the service duration plus a
  5-minute buffer.
 */
module TimeWindow {

  /** Distance between consecutive candidate starts. */
  const SlotStepMin: int := 15
  /** Turnover time appended to every appointment. */
  const BufferMin: int := 5
  const MinutesPerDay: int := 1440

  /**
    The instant of minute `minute` after midnight of day number `day`
    (day 0 is 1970-01-01). Stands in for the salon-timezone conversion.
   */
  function ToInstant(day: int, minute: int): int
  {
    day * MinutesPerDay + minute
  }

  /** Day of the week of day number `day`, 0 = Sunday (day 0 was a Thursday). */
  function Weekday(day: int): (w: int)
    ensures 0 <= w < 7
  {
    (day + 4) % 7
  }

  /** The weekday repeats every seven days; 1970-01-04 (day 3) was a Sunday. */
  lemma WeekdayPeriodic(day: int)
    ensures Weekday(day + 7) == Weekday(day)
    ensures Weekday(3) == 0
  {
  }

  function AddMinutes(t: int, mins: int): int
  {
    t + mins
  }

  /** Half-open intervals `[aStart, aEnd)` and `[bStart, bEnd)` intersect. */
  predicate RangesOverlap(aStart: int, aEnd: int, bStart: int, bEnd: int)
  {
    aStart < bEnd && bStart < aEnd
  }

  /** Minute `t` lies in `[s, e)`. */
  predicate Within(t: int, s: int, e: int)
  {
    s <= t < e
  }

  /** The test is symmetric, and intervals that only touch do not overlap. */
  lemma RangesOverlapSymmetric(aStart: int, aEnd: int, bStart: int, bEnd: int)
    ensures RangesOverlap(aStart, aEnd, bStart, bEnd) == RangesOverlap(bStart, bEnd, aStart, aEnd)
    ensures aEnd == bStart ==> !RangesOverlap(aStart, aEnd, bStart, bEnd)
  {
  }

  /**
    Two non-empty intervals overlap exactly when some minute lies in both.
    (Inverted or empty intervals can pass the test without sharing a minute.)
   */
  lemma RangesOverlapIffSharedMinute(aStart: int, aEnd: int, bStart: int, bEnd: int)
    requires aStart < aEnd && bStart < bEnd
    ensures RangesOverlap(aStart, aEnd, bStart, bEnd)
            <==> exists t :: Within(t, aStart, aEnd) && Within(t, bStart, bEnd)
  {
    if RangesOverlap(aStart, aEnd, bStart, bEnd) {
      var t := if aStart < bStart then bStart else aStart;
      assert Within(t, aStart, aEnd) && Within(t, bStart, bEnd);
    }
  }

  /** Candidates starting at `t`, every `SlotStepMin` minutes, while `t + span <= windowEnd`. */
  function SlotsFrom(t: int, windowEnd: int, span: int): (r: seq<(int, int)>)
    ensures forall i :: 0 <= i < |r| ==> r[i].0 == t + SlotStepMin * i
    ensures forall i :: 0 <= i < |r| ==> r[i].1 == r[i].0 + span && r[i].1 <= windowEnd
    ensures t + SlotStepMin * |r| + span > windowEnd
    decreases windowEnd - span - t
  {
    if AddMinutes(t, span) <= windowEnd then
      [(t, AddMinutes(t, span))] + SlotsFrom(AddMinutes(t, SlotStepMin), windowEnd, span)
    else []
  }

  /**
    The candidate `[start, end)` pairs of one work-hour window: starts at
    `windowStart + 15k`, each `durationMin + 5` long, every one ending inside
    the window, and the next start on the grid would not fit.
   */
  function IterateSlots(windowStart: int, windowEnd: int, durationMin: int): (r: seq<(int, int)>)
    ensures forall i :: 0 <= i < |r| ==> r[i].0 == windowStart + SlotStepMin * i
    ensures forall i :: 0 <= i < |r| ==>
      r[i].1 - r[i].0 == durationMin + BufferMin && windowStart <= r[i].0 && r[i].1 <= windowEnd
    ensures forall i, j :: 0 <= i < j < |r| ==> r[i].0 < r[j].0
    ensures windowStart + SlotStepMin * |r| + durationMin + BufferMin > windowEnd
    ensures windowEnd - windowStart < durationMin + BufferMin ==> r == []
  {
    SlotsFrom(windowStart, windowEnd, durationMin + BufferMin)
  }

  /** `(s, e)` is the `k`-th point of the grid of the window and fits inside it. */
  predicate GridSlot(windowStart: int, windowEnd: int, durationMin: int, k: int, s: int, e: int)
  {
    k >= 0 && s == windowStart + SlotStepMin * k && e == s + durationMin + BufferMin && e <= windowEnd
  }

  /** The candidates are exactly the grid points that fit: nothing skipped, nothing extra. */
  lemma IterateSlotsExact(windowStart: int, windowEnd: int, durationMin: int, s: int, e: int)
    ensures (s, e) in IterateSlots(windowStart, windowEnd, durationMin)
            <==> exists k :: GridSlot(windowStart, windowEnd, durationMin, k, s, e)
  {
    var r := IterateSlots(windowStart, windowEnd, durationMin);
    if (s, e) in r {
      var i :| 0 <= i < |r| && r[i] == (s, e);
      assert GridSlot(windowStart, windowEnd, durationMin, i, s, e);
    }
    if k :| GridSlot(windowStart, windowEnd, durationMin, k, s, e) {
      assert k < |r|;
      assert r[k] == (s, e);
    }
  }

  /** The number of candidates: one per grid point from the window start to the last fitting start. */
  lemma IterateSlotsCount(windowStart: int, windowEnd: int, durationMin: int)
    ensures var n := |IterateSlots(windowStart, windowEnd, durationMin)|;
            var room := windowEnd - windowStart - durationMin - BufferMin;
            n == if room >= 0 then room / SlotStepMin + 1 else 0
  {
    var r := IterateSlots(windowStart, windowEnd, durationMin);
    var room := windowEnd - windowStart - durationMin - BufferMin;
    if room >= 0 {
      assert |r| > 0;
      assert r[|r| - 1].1 <= windowEnd;
      assert SlotStepMin * (|r| - 1) <= room;
      assert room < SlotStepMin * |r|;
    }
  }

  /** 09:00 to 18:00 with a 60-minute service: 32 slots, the first at 09:00, the last at 16:45. */
  lemma NineToSixWithAnHourService()
    ensures var r := IterateSlots(9 * 60, 18 * 60, 60);
            |r| == 32 && r[0] == (540, 605) && r[31] == (1005, 1070)
  {
    IterateSlotsCount(9 * 60, 18 * 60, 60);
  }
}
